=== FILE: README.md ===
# speedy-charts colour and validation core, in Dafny

speedy-charts wraps a plotting library with chart classes: plain bar, grouped bar,
stacked bar, horizontal stacked bar, line and scatter. They supply defaults for
colouring categories, placing the legend and applying the palette. The drawing
itself is passed straight to the library. What has rules is everything around
it, and that is what this project models as pure functions over immutable data:

- **Category colour mapper** (`ColourMapper`, `ColourTables`). A categorical
  column becomes an insertion-ordered category→colour table. The categories come
  either in first-seen order or from a caller-given list, and position i is paired
  with palette entry i. A numeric column is cut into left-closed, right-open
  ranges `[b[i], b[i+1])`. Each row is then tagged with its category's colour.
- **Legend placement** (`LegendPlacement`). The shared anchor policy has four
  outcomes: hidden; inside at the keyword; right of the plot at (1.05, 1) with
  zero padding; or below the plot at (0.5, -0.2) with one column per entry.
- **Legend handles** (`LegendHandles`). There is one patch per listed category.
  The patches are sorted by the category's position in the list.
- **Wrapper decision tables** (`BarChart`, `ScatterChart`, `SeriesCharts`). For
  each request they give either the error the call raises or the branch it takes
  and what that branch computes:
  - the per-row colours and handles;
  - the running stacked baseline;
  - the grouped-bar offsets and tick positions.

Values are exact: numeric cells are `real`, and colours are opaque strings. A
table is a row count plus named columns, and each column is tagged categorical or
numeric, as the library's numeric-dtype test reports it.

## Model

| member | source | states |
|---|---|---|
| `Seqs.FirstIndex` | src/speedy_charts/charts.py:105 | `list.index`, at lines 97, 105, 343 and 352: the first position holding the value, or the length when it is absent (where `list.index` raises, which the legend keys never reach) |
| `Seqs.Distinct` | src/speedy_charts/charts.py:51 | The column's `unique()`: no duplicates, and exactly the values that occur in the column |
| `Seqs.DistinctFirstSeenOrder` | src/speedy_charts/charts.py:51 | Distinct values are listed in the order of their first occurrence in the column |
| `Seqs.Contains` | src/speedy_charts/charts.py:28 | The substring test `'upper' in loc`, at lines 28, 143 and 386. Stated through `ContainsIffOccurs` |
| `Seqs.ContainsIffOccurs` | src/speedy_charts/charts.py:28 | The keyword test `'upper' in loc` holds exactly when the word occurs at some position of the keyword |
| `ColourTables.Lookup` | src/speedy_charts/charts.py:52 | A row's category gets a colour exactly when it is a key of the table; the colour is the one stored at that key's position |
| `ColourTables.Put` | src/speedy_charts/charts.py:51 | Dictionary assignment: the key then maps to the new colour, every other key keeps its colour, and a new key is appended at the end of the insertion order |
| `ColourTables.Build` | src/speedy_charts/charts.py:55 | The dictionary comprehension of lines 51, 55 and 75. Its meaning is stated by `BuildKeys`, `BuildLookup`, `BuildPositional` and `BuildLookupAt` |
| `ColourTables.BuildKeys` | src/speedy_charts/charts.py:55 | The table built from an ordered category list has the list's distinct categories as keys, in first-seen order |
| `ColourTables.BuildLookup` | src/speedy_charts/charts.py:55 | A listed category maps to the palette entry at its last position in the list (a repeated key is overwritten); an unlisted one maps to nothing |
| `ColourTables.BuildPositional` | src/speedy_charts/charts.py:75 | Without repeats, table entry i pairs list item i with palette entry i |
| `ColourTables.BuildLookupAt` | src/speedy_charts/charts.py:55 | Without repeats, list item i is looked up to palette entry i |
| `ColourMapper.CategoryOrder` | src/speedy_charts/charts.py:50-55 | The categories a table is built from: the list when given, else the first-seen values. Stated through `MapCategories` and `CategoryRowColour` |
| `ColourMapper.RowColours` | src/speedy_charts/charts.py:52 | `Series.map` with the table, at lines 52, 56 and 76. Stated through `CategoryRowColour` and `RangeRowColour` |
| `ColourMapper.MapCategories` | src/speedy_charts/charts.py:40-57 | Rejects exactly the numeric columns. Otherwise the table's keys are the distinct categories of the effective order (the given list, else first-seen values), with one colour slot per row |
| `ColourMapper.CategoryRowColour` | src/speedy_charts/charts.py:52-56 | Every row's colour is the palette entry for its category's last listed position; rows whose category is not listed get no colour |
| `ColourMapper.FirstSeenColours` | src/speedy_charts/charts.py:50-53 | With no list, key i is the i-th distinct value in first-seen order and maps to palette[i]; every row is coloured |
| `ColourMapper.ListedColours` | src/speedy_charts/charts.py:54-57 | With a list of distinct categories, list position i maps to palette[i] whatever the row order; a row is coloured exactly when its category is listed |
| `ColourMapper.BinFrom` | src/speedy_charts/charts.py:73 | A scan from position k finds a range at or after k that holds the value, or proves that no range from k on holds it |
| `ColourMapper.BinOf` | src/speedy_charts/charts.py:73 | The range a value is cut into holds the value; when no range is found, none holds it |
| `ColourMapper.BinsDisjoint` | src/speedy_charts/charts.py:73 | Over increasing boundaries, no value lies in two ranges |
| `ColourMapper.BinOfIff` | src/speedy_charts/charts.py:73 | A value gets label i exactly when `b[i] <= v < b[i+1]` |
| `ColourMapper.BoundaryValueLeftClosed` | src/speedy_charts/charts.py:73 | A value equal to boundary i lands in range i, never in range i-1 |
| `ColourMapper.OutsideAllBins` | src/speedy_charts/charts.py:73 | A value below the first boundary, or at or above a finite last boundary, is in no range |
| `ColourMapper.RangeLabel` | src/speedy_charts/charts.py:73-74 | The range cut followed by the string cast: label i inside range i, the missing-value text outside every range. Stated through `RangeRowColour` and `RangeLabelExample` |
| `ColourMapper.MapRanges` | src/speedy_charts/charts.py:59-78 | A non-numeric column is rejected; then a label count other than boundaries minus one is rejected before any row is cut. Otherwise label i maps to palette[i], with one category and one colour per row |
| `ColourMapper.RangeRowColour` | src/speedy_charts/charts.py:73-76 | A value in range i is labelled labels[i] and coloured palette[i]. A value in no range gets no colour, unless a label is literally the missing-value text |
| `ColourMapper.RangeLabelExample` | src/speedy_charts/charts.py:68-73 | With boundaries 0, 50, 75, inf: 50 is "medium", 49.9 is "low", 1000 is "high", and -1 is in no range |
| `LegendHandles.InsertBy` | src/speedy_charts/charts.py:105 | Inserting one handle into a sorted list keeps it sorted and adds exactly that handle; the new first handle is either the inserted one or the old first |
| `LegendHandles.SortBy` | src/speedy_charts/charts.py:105 | `sorted(handles, key=…)`: the result is ordered by key and is a permutation of the input |
| `LegendHandles.SortBySorted` | src/speedy_charts/charts.py:97 | Sorting handles that are already in key order changes nothing |
| `LegendHandles.Patches` | src/speedy_charts/charts.py:104 | One patch per listed category, labelled with it and coloured with the table's colour for it |
| `LegendHandles.SortedPatches` | src/speedy_charts/charts.py:104-105 | The legend handles are a permutation of the patches, ordered by each label's first position in the category list |
| `LegendHandles.DistinctOrderKeepsPatches` | src/speedy_charts/charts.py:96-97 | When each category is listed once, the sort leaves the patches in list order |
| `LegendHandles.BuiltPatches` | src/speedy_charts/charts.py:101-105 | Over a table built from distinct categories, the sorted handles pair category i with palette[i], in list order |
| `LegendPlacement.Place` | src/speedy_charts/charts.py:138-147 | Inside exactly when the area is "inside". Outside, a keyword mentioning neither "upper" nor "lower" anchors right at (1.05, 1) with zero padding; otherwise below at (0.5, -0.2) with one column per entry |
| `LegendPlacement.SeriesLegend` | src/speedy_charts/charts.py:20-34 | Hidden exactly when the legend is disabled or y is not a list; otherwise the same three placements as above, by the same keyword tests |
| `LegendPlacement.DefaultKeywords` | src/speedy_charts/charts.py:143-147 | The default keywords "upper center" and "lower center" put the legend below; a side keyword such as "center right" puts it to the right |
| `BarChart.BarMarks` | src/speedy_charts/charts.py:89-120 | Bars are coloured by category exactly when a table has a category column of the right kind; ranges count only with a list. The branch is first-seen, listed or ranged. The mapping is the categorical or range mapper's result, and the handles are its patches sorted by list position. A failure names its error: a numeric column without ranges, a categorical column or a label count that does not match the boundaries with ranges, otherwise an empty palette on the single-colour path |
| `BarChart.PlotBar` | src/speedy_charts/charts.py:89-147 | A plain bar fails only on a table with an empty palette. Otherwise it is drawn in the palette (raw sequences) or its first colour (a table), with the series legend placed outside. Ranges without a list are always rejected. A list without a column fails with an empty palette or unbound handles. A category column without a table leaves the handles unbound. With a table and a column, the call fails with the marks' error or draws the categorised marks with the patch legend, whatever the legend flag says |
| `BarChart.CategoriesWithoutTable` | src/speedy_charts/charts.py:118-140 | A category column or list without a table builds no handles, so the patch legend fails |
| `BarChart.FirstSeenBarLegend` | src/speedy_charts/charts.py:92-97 | A bar coloured by the column's own values colours every row. Its legend lists the distinct values in first-seen order, value i in palette[i], and the legend is placed for that many entries |
| `BarChart.ListedBarLegend` | src/speedy_charts/charts.py:100-105 | A bar coloured by a list of distinct categories lists them in list order in its legend, category i in palette[i] |
| `BarChart.RangedBarLegend` | src/speedy_charts/charts.py:107-113 | A ranged bar whose labels match the boundaries is drawn from the range mapper's result. Its legend lists the labels in list order, label i in palette[i], placed for that many entries |
| `BarChart.CategoryBarPlot` | src/speedy_charts/charts.py:92-105 | A bar over a categorical column, without ranges, builds its table from the category order (list or first-seen values), uses the sorted patches as handles and places the patch legend for that many entries |
| `ScatterChart.Needed` | src/speedy_charts/charts.py:329-346 | The colour count each guarded branch compares with the palette: distinct values (329), list length (337), boundaries minus one (346). Stated through `ScatterMarks`, `PlotScatter` and the three branch lemmas |
| `ScatterChart.ScatterMarks` | src/speedy_charts/charts.py:322-371 | A categorised result always passed its branch's palette guard. With a table and no category column, a single series uses the library's colours; many series fail, for the missing list when ranges come without one, otherwise because the `None` column is indexed. With a category column, ranges without a list are rejected once the first-seen branch does not fire, and every other fall-through raises the too-many-categories error with the distinct count and the palette size. Without a table: the default palette per series, its first colour for one series, or nothing. The outcome of each guarded branch is stated by the three lemmas below |
| `ScatterChart.FirstSeenScatterMarks` | src/speedy_charts/charts.py:329-334 | Once the first-seen guard holds, a numeric column is rejected as numeric (lines 41-43). Otherwise the marks carry the first-seen mapping, with one unsorted patch per distinct value in first-seen order |
| `ScatterChart.ListedScatterMarks` | src/speedy_charts/charts.py:337-343 | Once the listed guard holds, a numeric column is rejected as numeric (lines 41-43). Otherwise the marks carry the mapper's table for the list, repeats included, with the patches sorted by list position |
| `ScatterChart.RangedScatterMarks` | src/speedy_charts/charts.py:346-352 | Once the ranged guard holds, a categorical column is rejected (lines 60-63), then a label count other than the boundaries minus one (lines 68-71). Otherwise the marks carry the range mapping, with the patches sorted by list position |
| `ScatterChart.PlotScatter` | src/speedy_charts/charts.py:322-391 | The scatter fails exactly with the marks' error. Without a category column it draws the marks with the series legend. With one, a successful scatter is categorised, within its palette guard, with the patch legend. With a category column and a table, ranges without a list fail whenever the first-seen branch does not fire. A category column without a table has no handles |
| `ScatterChart.FirstSeenScatterLegend` | src/speedy_charts/charts.py:329-334 | A first-seen scatter lists the distinct values in first-seen order, value i in palette[i] |
| `ScatterChart.ListedScatterLegend` | src/speedy_charts/charts.py:337-343 | A scatter with a list of distinct categories and a colour for each is drawn from the categorical mapper's result for that list. The legend lists the categories in list order, category i in palette[i], placed for that many entries |
| `ScatterChart.RangedScatterLegend` | src/speedy_charts/charts.py:346-352 | A ranged scatter whose labels match the boundaries, with a colour for each label, is drawn from the range mapper's result. The legend lists the labels in list order, label i in palette[i], placed for that many entries |
| `ScatterChart.RangesWithoutListAccepted` | src/speedy_charts/charts.py:329-357 | The concrete input of the finding: a categorical column `position` = GK, DEF, one series, ranges [0, inf), no list and two colours. As written, the scatter is drawn |
| `ScatterChart.RangesIgnoredByFirstSeen` | src/speedy_charts/charts.py:329-357 | In general: a single-series scatter over a categorical column with enough colours, ranges and no list is drawn, and it is exactly the scatter drawn without the ranges |
| `ScatterChart.RangesIgnoredWithoutColumn` | src/speedy_charts/charts.py:325-357 | The basic branch also skips the rejection: a single-series scatter from a table without a category column, given ranges but no list, is drawn, exactly as without the ranges |
| `ScatterChart.TooFewColoursBeforeCut` | src/speedy_charts/charts.py:346-363 | Ranges the cut would refuse, with a palette shorter than the boundaries minus one, never reach the cut: a single numeric value, decreasing boundaries and no colours raise the too-many-categories error with distinct count 1 and palette size 0 |
| `ScatterChart.ScatterMarksChecked` | src/speedy_charts/charts.py:354-357 | With the ranges check first, ranges without a list on a table are always rejected, and a first-seen colouring never has ranges |
| `ScatterChart.PlotScatterChecked` | src/speedy_charts/charts.py:322-391 | The checked scatter rejects ranges without a list and otherwise behaves exactly like the scatter as written |
| `SeriesCharts.CheckSeries` | src/speedy_charts/charts.py:163-176 | A multi-series request is accepted exactly when it has a table, a list of series, enough colours and a list palette. A failure reports the first missing one, in that order |
| `SeriesCharts.SeriesValues` | src/speedy_charts/charts.py:179 | One value sequence per named series: the named column's numbers, one value per row |
| `SeriesCharts.Baselines` | src/speedy_charts/charts.py:169-180 | The running baseline under series i is, row by row, the sum of series 0..i-1 |
| `SeriesCharts.PlotStacked` | src/speedy_charts/charts.py:163-235 | Stacked and horizontal stacked bars fail exactly as the shared checks say, with the same error, whatever columns y names. Otherwise series i is drawn with its column's values in palette[i] on the per-row sum of the earlier series. The top of the last series is the row total over all series, and the series legend covers all series |
| `SeriesCharts.StackTop` | src/speedy_charts/charts.py:178-180 | The last series' baseline plus its value is the row total, summed independently from the first series on |
| `SeriesCharts.SumBelowIsTotal` | src/speedy_charts/charts.py:169-180 | The running baseline under series i equals the independently summed total of series 0..i-1 in that row |
| `SeriesCharts.RowTotalAppend` | src/speedy_charts/charts.py:179-180 | Adding one more series to the stack raises the row total by that series' value |
| `SeriesCharts.StackedExample` | src/speedy_charts/charts.py:178-180 | Series (3, 1) and (2, 4): the second series starts at (3, 1) and row 0 tops out at 5 |
| `SeriesCharts.PlotGrouped` | src/speedy_charts/charts.py:247-282 | Grouped bars fail exactly as the shared checks say, whatever columns y names. Otherwise series i is drawn with its column's values in palette[i] at offset i·width, and each row gets one tick and the series legend |
| `SeriesCharts.BarWidth` | src/speedy_charts/charts.py:256 | `1 / (n_groups + 1)`. Stated through `OffsetsFitSlot` |
| `SeriesCharts.Offset` | src/speedy_charts/charts.py:265 | `width * i`. Stated through `OffsetsFitSlot` and `TickIsMidpoint` |
| `SeriesCharts.Tick` | src/speedy_charts/charts.py:268 | `(x - 0.5*width) + width*len(y)/2`. Stated through `TickIsMidpoint` |
| `SeriesCharts.OffsetsFitSlot` | src/speedy_charts/charts.py:254-266 | n+1 widths fill a slot. Consecutive series sit one width apart, every offset lies in [0, 1), and the last bar leaves a width of gap before the next slot |
| `SeriesCharts.TickIsMidpoint` | src/speedy_charts/charts.py:268 | The tick `x - width/2 + width·n/2` is the midpoint of the first and last offsets |

## Left out

- Drawing is not modelled: figures, themes, axis labels, titles, tick rotation, `subplots_adjust` and `print`. The result records only the branch taken, the colours and the legend anchor.
- Hex-to-RGBA conversion and the colormap object are not modelled. Palette entries are opaque colours, and `cmap(i)` is palette entry i.
- MapCategories: requires at least as many colours as categories. Beyond its length the colormap returns a library-defined colour, which is not modelled. Scatter's guards meet this requirement; a bar request must meet it itself (`BarFits`).
- MapRanges: requires strictly increasing boundaries and distinct labels once the count check passes. The scatter demands this only of ranges that pass its palette guard (`ScatterFits`); shorter palettes fall through to the too-many-categories error without a cut (`TooFewColoursBeforeCut`). The range cut rejects anything else inside the data library, and that rejection is not modelled. It also requires a colour per label: the colormap returns a library-defined colour past the palette's end. Scatter's guard meets this requirement; the ranged bar does not check it, so a bar request must meet it itself (`BarFits`).
- Missing category and series column names are ruled out by preconditions, for the series columns only once the shared checks have passed. The data library's `KeyError` for them is not modelled, except for the `None` category column that the scatter branches index.
- The `x` column, and the `y` column of the bar and scatter, are not modelled. A missing name raises `KeyError` at `set_index` (charts.py lines 167, 210 and 251), after the y-list check and before the palette checks, or at the drawing calls of the bar and scatter. The model reports the palette errors or draws the chart there.
- Legend entry counts: a bar or scatter drawn without labels has no legend entries (count 0). A multi-series chart has one entry per series. A series name that the plotting library hides from legends (a leading underscore) is not modelled.
- Series columns of the stacked and grouped bars are numeric, one value per row, once the shared checks pass. A non-numeric series column would fail or be drawn inside the plotting library, which is not modelled.
- Style options are taken explicitly: each call passes the palette, legend flag, legend keyword and plot area. The per-wrapper defaults are not modelled. These are the legend flag (off for the plain bar, on for the others), the keyword `'upper center'` (`'lower center'` for the horizontal stacked bar), the plot area `'outside'`, and the palette `af_categorical`.
- A below-anchored legend records only where the legend is anchored. Its column count is the entry count, which can be 0: a plain bar or scatter whose series legend is shown, or an empty category list. The plotting library may reject zero columns; the model does not say what the library then does.
- Only string category labels are modelled. With non-string labels the string-cast range labels would not match the table keys.
- Missing values (NaN) in numeric columns are not modelled.
- The stacked chart's `set_index`/`reset_index` and the added `colour`/`range_category` columns are not modelled. The model returns per-row colours instead of changing the table.
- The line wrapper is not modelled: it only forwards its arguments to the plotting call.
- The default palette `af_categorical` and the module that defines it are not part of this model. The scatter marks that use it are recorded as `DefaultPalette`/`DefaultFirst`.
- Floating point is not modelled: numbers are exact reals, so stacked sums and grouped offsets carry no rounding.
- The test scripts under `tests/` are not modelled. They are a display script and a sample-data module.

## Findings

| source | as written | input that shows it | evidently intended | confidence | as-written member | corrected member |
|---|---|---|---|---|---|---|
| src/speedy_charts/charts.py:325-357 | The ranges-without-list rejection is tried after the basic and first-seen branches | A table with categorical column `position` = GK, DEF; y = `influence`; `custom_ranges=[0, inf]`; no category list; two colours. The scatter is drawn by first-seen category and the ranges are silently ignored. The same request without a category column is drawn as the basic scatter (`RangesIgnoredWithoutColumn`) | Custom ranges without a category list are rejected, as the bar wrapper does at lines 132-135 | medium, not executed | `ScatterChart.RangesWithoutListAccepted` | `ScatterChart.PlotScatterChecked` |

=== FILE: bar_chart.dfy ===
/** The plain bar wrapper: which colouring branch a request takes, the
    errors it raises, and the legend it attaches. */
module BarChart {
  import opened ChartBase
  import opened Seqs
  import opened ColourTables
  import opened ColourMapper
  import opened LegendHandles
  import opened LegendPlacement
  import opened Categorised

  datatype Bar = Bar(marks: Marks, legend: Legend)

  /** The category list a table-backed categorised bar builds its colours
      from: the caller's list, else the column's own distinct values. */
  function BarOrder(req: Request): seq<Category>
    requires req.table.Some? && req.column.Some? && req.ColumnExists()
  {
    if req.order.Some? then req.order.value else UniqueLabels(req.CategoryColumn())
  }

  /** What the mappers need on the branch the request takes: the named
      column exists, the palette covers the categories, and custom ranges
      are increasing with distinct labels. */
  predicate BarFits(req: Request, palette: seq<Colour>) {
    && req.ColumnExists()
    && (req.table.Some? && req.column.Some? && req.ranges.None? ==>
          CategoriesFit(req.CategoryColumn(), palette, Some(BarOrder(req))))
    && (req.table.Some? && req.column.Some? && req.ranges.Some? && req.order.Some? ==>
          RangesFit(req.CategoryColumn(), palette, req.order.value, req.ranges.value))
  }

  /** The marks: coloured by category when the table has a category column
      (and ranges come with a list), else in one colour, or in the palette
      for bars drawn from raw sequences. */
  function BarMarks(req: Request, palette: seq<Colour>): (r: Result<Marks>)
    requires BarFits(req, palette)
    ensures r.Success? && r.value.ByCategory? <==>
      && req.table.Some? && req.column.Some? && (req.order.Some? || req.ranges.None?)
      && (req.ranges.None? ==> req.CategoryColumn().Categorical?)
      && (req.ranges.Some? ==> req.CategoryColumn().Numeric? && |req.order.value| == |req.ranges.value| - 1)
    ensures r.Success? && r.value.ByCategory? ==>
      r.value.branch == (if req.order.None? then FirstSeen else if req.ranges.None? then Listed else Ranged)
    ensures r.Failure? <==>
      || (req.table.Some? && req.column.Some? && req.ranges.None? && req.CategoryColumn().Numeric?)
      || (req.table.Some? && req.column.Some? && req.ranges.Some? && req.order.Some? &&
          (req.CategoryColumn().Categorical? || |req.order.value| != |req.ranges.value| - 1))
      || (req.table.Some? && |palette| == 0 && !(req.column.Some? && (req.order.Some? || req.ranges.None?)))
    ensures r.Failure? ==>
      r.error == (if req.table.Some? && req.column.Some? && req.ranges.None? then NumericCategoryColumn
                  else if req.table.Some? && req.column.Some? && req.order.Some? then
                    (if req.CategoryColumn().Categorical? then NonNumericRangeColumn
                     else RangeLabelCount(|req.order.value|, |req.ranges.value|))
                  else EmptyPalette)
    ensures r.Success? && r.value.ByCategory? && req.ranges.None? ==>
      && r.value.mapping == MapCategories(req.CategoryColumn(), palette, Some(BarOrder(req))).value
      && r.value.handles == SortedPatches(BarOrder(req), r.value.mapping.table)
    ensures r.Success? && r.value.ByCategory? && req.ranges.Some? ==>
      && r.value.mapping == MapRanges(req.CategoryColumn(), palette, req.order.value, req.ranges.value).value
      && r.value.handles == SortedPatches(req.order.value, r.value.mapping.table)
  {
    if req.table.None? then Success(PaletteCycle)
    else if req.column.Some? && req.ranges.None? then
      var order := BarOrder(req);
      var m :- MapCategories(req.CategoryColumn(), palette, Some(order));
      OrderInKeys(order, m.table);
      Success(ByCategory(if req.order.None? then FirstSeen else Listed, m, SortedPatches(order, m.table)))
    else if req.column.Some? && req.order.Some? then
      var m :- MapRanges(req.CategoryColumn(), palette, req.order.value, req.ranges.value);
      Success(ByCategory(Ranged, m, SortedPatches(req.order.value, m.table)))
    else if |palette| == 0 then Failure(EmptyPalette)
    else Success(Uniform(palette[0]))
  }

  /** A bar chart: the marks, then the legend. A plain chart gets the series
      legend (always placed outside); any category argument gets the patch
      legend, drawn whatever the legend flag says. */
  function PlotBar(req: Request, style: Style): (r: Result<Bar>)
    requires BarFits(req, style.palette.colours)
    ensures req.ranges.Some? && req.order.None? ==>
      r == Failure(if req.table.Some? && |style.palette.colours| == 0 then EmptyPalette else MissingCategoryList)
    ensures r.Success? && r.value.marks.ByCategory? ==>
      r.value.legend == Place(style.plotArea, style.legendLoc, |r.value.marks.handles|)
    ensures r.Success? && !r.value.marks.ByCategory? ==>
      req.column.None? && req.order.None? && req.ranges.None? &&
      r.value.legend == SeriesLegend(style.legend, req.y.Many?, "outside", style.legendLoc, 0)
    ensures req.column.None? && req.order.None? && req.ranges.None? ==>
      if req.table.Some? && |style.palette.colours| == 0 then r == Failure(EmptyPalette)
      else r == Success(Bar(if req.table.None? then PaletteCycle else Uniform(style.palette.colours[0]),
                            SeriesLegend(style.legend, req.y.Many?, "outside", style.legendLoc, 0)))
    ensures req.column.None? && req.order.Some? ==>
      r == Failure(if req.table.Some? && |style.palette.colours| == 0 then EmptyPalette else HandlesUnbound)
    ensures req.table.Some? && req.column.Some? && (req.order.Some? || req.ranges.None?) ==>
      var m := BarMarks(req, style.palette.colours);
      if m.Failure? then r == Failure(m.error)
      else m.value.ByCategory? && r == Success(Bar(m.value, Place(style.plotArea, style.legendLoc, |m.value.handles|)))
  {
    var marks :- BarMarks(req, style.palette.colours);
    if req.ranges.None? && req.order.None? && req.column.None? then
      Success(Bar(marks, SeriesLegend(style.legend, req.y.Many?, "outside", style.legendLoc, 0)))
    else if req.ranges.Some? && req.order.None? then Failure(MissingCategoryList)
    else if !marks.ByCategory? then Failure(HandlesUnbound)
    else Success(Bar(marks, Place(style.plotArea, style.legendLoc, |marks.handles|)))
  }

  /** A category list or column without a table to colour from leaves the
      patch legend without handles. */
  lemma CategoriesWithoutTable(req: Request, style: Style)
    requires BarFits(req, style.palette.colours)
    requires req.table.None? && (req.column.Some? || req.order.Some?)
    requires req.ranges.None? || req.order.Some?
    ensures PlotBar(req, style) == Failure(HandlesUnbound)
  {
  }

  /** A categorised bar from the column's own values: every row is coloured,
      and the legend lists the distinct values in first-seen order, value i
      with palette entry i. */
  lemma FirstSeenBarLegend(req: Request, style: Style)
    requires BarFits(req, style.palette.colours)
    requires req.table.Some? && req.column.Some? && req.order.None? && req.ranges.None?
    requires req.CategoryColumn().Categorical?
    ensures var r := PlotBar(req, style);
      var labels := req.CategoryColumn().labels;
      var d := Distinct(labels);
      && r.Success? && r.value.marks.ByCategory?
      && |r.value.marks.handles| == |d|
      && (forall i :: 0 <= i < |d| ==> r.value.marks.handles[i] == Entry(d[i], style.palette.colours[i]))
      && (forall k :: 0 <= k < |labels| ==> r.value.marks.mapping.rowColours[k].Some?)
      && r.value.legend == Place(style.plotArea, style.legendLoc, |d|)
  {
    var palette := style.palette.colours;
    var column := req.CategoryColumn();
    var d := Distinct(column.labels);
    var m := CategoryBarPlot(req, style);
    BuiltPatches(d, palette);
    forall k | 0 <= k < |column.labels| ensures m.rowColours[k].Some? {
      CategoryRowColour(column, palette, Some(d), k);
    }
  }

  /** A categorised bar with a list of distinct categories: the legend lists
      them in list order, category i with palette entry i. */
  lemma ListedBarLegend(req: Request, style: Style)
    requires BarFits(req, style.palette.colours)
    requires req.table.Some? && req.column.Some? && req.order.Some? && req.ranges.None?
    requires req.CategoryColumn().Categorical? && NoDups(req.order.value)
    ensures var r := PlotBar(req, style);
      var o := req.order.value;
      && r.Success? && r.value.marks == ByCategory(Listed, r.value.marks.mapping, r.value.marks.handles)
      && |r.value.marks.handles| == |o|
      && (forall i :: 0 <= i < |o| ==> r.value.marks.handles[i] == Entry(o[i], style.palette.colours[i]))
  {
    var m := CategoryBarPlot(req, style);
    BuiltPatches(req.order.value, style.palette.colours);
  }

  /** A categorised bar over a categorical column plots the mapping built
      from its category order, with the sorted patches as handles. */
  lemma CategoryBarPlot(req: Request, style: Style) returns (m: Mapping)
    requires BarFits(req, style.palette.colours)
    requires req.table.Some? && req.column.Some? && req.ranges.None?
    requires req.CategoryColumn().Categorical?
    ensures MapCategories(req.CategoryColumn(), style.palette.colours, Some(BarOrder(req))) == Success(m)
    ensures m.table == Build(BarOrder(req), style.palette.colours)
    ensures var hs := SortedPatches(BarOrder(req), m.table);
      PlotBar(req, style) == Success(Bar(ByCategory(if req.order.None? then FirstSeen else Listed, m, hs),
                                         Place(style.plotArea, style.legendLoc, |hs|)))
  {
    var palette := style.palette.colours;
    var o := BarOrder(req);
    m := MapCategories(req.CategoryColumn(), palette, Some(o)).value;
    var hs := SortedPatches(o, m.table);
    assert BarMarks(req, palette) == Success(ByCategory(if req.order.None? then FirstSeen else Listed, m, hs));
  }

  /** A ranged bar with as many labels as ranges: the rows are cut into the
      ranges, and the legend lists the labels in list order, label i with
      palette entry i. */
  lemma RangedBarLegend(req: Request, style: Style)
    requires BarFits(req, style.palette.colours)
    requires req.table.Some? && req.column.Some? && req.order.Some? && req.ranges.Some?
    requires req.CategoryColumn().Numeric? && |req.order.value| == |req.ranges.value| - 1
    ensures var r := PlotBar(req, style);
      var o := req.order.value;
      && r.Success? && r.value.marks.ByCategory? && r.value.marks.branch == Ranged
      && r.value.marks.mapping == MapRanges(req.CategoryColumn(), style.palette.colours, o, req.ranges.value).value
      && |r.value.marks.handles| == |o|
      && (forall i :: 0 <= i < |o| ==> r.value.marks.handles[i] == Entry(o[i], style.palette.colours[i]))
      && r.value.legend == Place(style.plotArea, style.legendLoc, |o|)
  {
    var palette := style.palette.colours;
    var o := req.order.value;
    var m := MapRanges(req.CategoryColumn(), palette, o, req.ranges.value).value;
    assert m.table == Build(o, palette);
    var hs := SortedPatches(o, m.table);
    assert BarMarks(req, palette) == Success(ByCategory(Ranged, m, hs));
    assert PlotBar(req, style) == Success(Bar(ByCategory(Ranged, m, hs), Place(style.plotArea, style.legendLoc, |hs|)));
    BuiltPatches(o, palette);
  }
}

=== FILE: categorised.dfy ===
/** What the bar and scatter wrappers share: the categorised request, the
    branch that colours the marks, and the marks a call produces. */
module Categorised {
  import opened ChartBase
  import opened Seqs
  import opened ColourTables
  import opened ColourMapper

  /** A bar or scatter request: the table if one was given, `y`, and the
      optional category column name, category list and range boundaries. */
  datatype Request = Request(
    table: Option<Frame>,
    y: SeriesSpec,
    column: Option<Name>,
    order: Option<seq<Category>>,
    ranges: Option<seq<Bound>>)
  {
    /** A named category column exists in the table. */
    predicate ColumnExists() {
      table.Some? && column.Some? ==> column.value in table.value.columns
    }

    function CategoryColumn(): Column
      requires table.Some? && column.Some? && ColumnExists()
    {
      table.value.columns[column.value]
    }
  }

  /** Which colour mapping coloured the marks. */
  datatype Branch = FirstSeen | Listed | Ranged

  /** How the marks of a bar or scatter chart are coloured. */
  datatype Marks =
    | PaletteCycle                   // bars from raw sequences, coloured with the whole palette
    | Uniform(colour: Colour)        // bars from a table in the palette's first colour
    | LibraryDefault                 // a scatter from a table, no colour argument
    | DefaultPalette(copies: nat)    // raw multi-series scatter, the built-in palette once per series
    | DefaultFirst                   // raw scatter in the built-in palette's first colour
    | NoMarks                        // nothing is drawn
    | ByCategory(branch: Branch, mapping: Mapping, handles: seq<Entry>)

  /** The column's distinct values in first-seen order (its `unique`). A
      numeric column is rejected by the categorical mapper before its values
      could serve as category labels, so none are listed for it. */
  function UniqueLabels(c: Column): seq<Category> {
    if c.Categorical? then Distinct(c.labels) else []
  }

  /** The number of distinct values of a column of either kind. */
  function DistinctCount(c: Column): nat {
    match c
    case Categorical(labels) => |Distinct(labels)|
    case Numeric(numbers) => |Distinct(numbers)|
  }

  /** Every key of a mapper's table is one of the categories it was built from. */
  lemma OrderInKeys(order: seq<Category>, t: Table)
    requires Keys(t) == Distinct(order)
    ensures forall i :: 0 <= i < |order| ==> order[i] in Keys(t)
  {
  }
}

=== FILE: chart_base.dfy ===
/** Shared vocabulary of the chart wrappers: optional values, results that carry
    one of the wrappers' rejections, colours, data columns and the style options
    every `plot` call receives. */
module ChartBase {

  datatype Option<+T> = None | Some(value: T)

  /** The outcome of a wrapper or mapper call: a value, or the error it raises. */
  datatype Result<+T> = Success(value: T) | Failure(error: ChartError) {

    predicate IsFailure() {
      Failure?
    }

    function PropagateFailure<U>(): Result<U>
      requires Failure?
    {
      Failure(error)
    }

    function Extract(): T
      requires Success?
    {
      value
    }
  }

  /** Every way a chart call aborts. Most are the library's own descriptive
      rejections; the last three are runtime errors the wrappers' branching
      runs into (a `KeyError` for a missing column name, an `IndexError` on an
      empty palette, an unbound local when no legend handles were built). */
  datatype ChartError =
    | NumericCategoryColumn                        // categorical mapper given a numeric column
    | NonNumericRangeColumn                        // range mapper given a non-numeric column
    | RangeLabelCount(labels: nat, bounds: nat)    // labels must number one fewer than bounds
    | MissingCategoryList                          // custom ranges without a category list
    | TooManyCategories(categories: nat, colours: nat)
    | MissingTable                                 // multi-series charts need a table
    | SeriesNotList                                // multi-series charts need a list of y columns
    | TooManySeries(series: nat, colours: nat)
    | PaletteNotList
    | ColumnMissing
    | EmptyPalette
    | HandlesUnbound

  /** A palette entry. Hex strings are converted to RGBA by the plotting
      library; here a colour is opaque and only compared for equality. */
  type Colour = string

  /** A categorical cell value, and the label of a numeric range. */
  type Category = string

  /** A column name of a table. */
  type Name = string

  /** The caller's palette. Its length is what the wrappers compare against;
      `isList` records whether it was passed as a list (a tuple or a single
      colour string also has a length). */
  datatype Palette = Palette(colours: seq<Colour>, isList: bool)

  /** One column of the table, tagged with the kind the numeric-dtype test
      reports for it. Numbers are exact reals. */
  datatype Column = Categorical(labels: seq<Category>) | Numeric(numbers: seq<real>)

  /** A table: a row count and its columns by name, each one value per row. */
  datatype Frame = Frame(rows: nat, columns: map<Name, Column>)

  /** The wrappers' `y` argument: one column name or a list of them. */
  datatype SeriesSpec = Single(name: Name) | Many(names: seq<Name>)

  /** The style options of a `plot` call that influence anything but drawing:
      the palette, the legend flag, the location keyword and the plot area. */
  datatype Style = Style(palette: Palette, legend: bool, legendLoc: string, plotArea: string)
}

=== FILE: colour_mapper.dfy ===
/** The category colour mapper: colour tables built from a categorical column
    (first-seen or caller-ordered categories) or from a numeric column cut
    into left-closed ranges, plus the colour each row is tagged with. */
module ColourMapper {
  import opened ChartBase
  import opened Seqs
  import opened ColourTables

  /** A mapper's output: the category table (which also feeds the legend),
      each row's category, and each row's colour (`None` where the row's
      category is not a key, pandas' missing value). */
  datatype Mapping = Mapping(table: Table, rowCategories: seq<Category>, rowColours: seq<Option<Colour>>)

  /** `Series.map(table)`: each row's category looked up in the table. */
  function RowColours(t: Table, cats: seq<Category>): seq<Option<Colour>> {
    seq(|cats|, k requires 0 <= k < |cats| => Lookup(t, cats[k]))
  }

  // ---------------------------------------------------------------------
  // Categorical columns

  /** The categories a table is built from: the caller's list when given,
      else the column's distinct values in first-seen order. */
  function CategoryOrder(labels: seq<Category>, order: Option<seq<Category>>): seq<Category> {
    if order.Some? then order.value else Distinct(labels)
  }

  /** The colormap is indexed once per listed category, so the palette must
      have a colour for each (what happens past its end is library code). */
  predicate CategoriesFit(column: Column, palette: seq<Colour>, order: Option<seq<Category>>) {
    column.Categorical? ==> |CategoryOrder(column.labels, order)| <= |palette|
  }

  /** Colour categories for a categorical column; a numeric column is rejected. */
  function MapCategories(column: Column, palette: seq<Colour>, order: Option<seq<Category>>): (r: Result<Mapping>)
    requires CategoriesFit(column, palette, order)
    ensures r.Failure? <==> column.Numeric?
    ensures r.Failure? ==> r.error == NumericCategoryColumn
    ensures r.Success? ==> Keys(r.value.table) == Distinct(CategoryOrder(column.labels, order))
    ensures r.Success? ==> r.value.rowCategories == column.labels
    ensures r.Success? ==> |r.value.rowColours| == |column.labels|
  {
    match column
    case Numeric(_) => Failure(NumericCategoryColumn)
    case Categorical(labels) =>
      var t := Build(CategoryOrder(labels, order), palette);
      BuildKeys(CategoryOrder(labels, order), palette);
      Success(Mapping(t, labels, RowColours(t, labels)))
  }

  /** A row's colour is the palette entry at its category's last position in
      the category order; rows whose category is not listed get no colour. */
  lemma CategoryRowColour(column: Column, palette: seq<Colour>, order: Option<seq<Category>>, k: nat)
    requires CategoriesFit(column, palette, order)
    requires column.Categorical? && k < |column.labels|
    ensures var r := MapCategories(column, palette, order);
      var o := CategoryOrder(column.labels, order);
      var c := column.labels[k];
      r.Success? &&
      r.value.rowColours[k] == if c in o then Some(palette[LastIndex(o, c)]) else None
  {
    BuildLookup(CategoryOrder(column.labels, order), palette, column.labels[k]);
  }

  /** Without a list: key i is the i-th distinct value in first-seen order and
      maps to palette[i]; every row gets the colour of its value's position. */
  lemma FirstSeenColours(column: Column, palette: seq<Colour>, k: nat)
    requires CategoriesFit(column, palette, None)
    requires column.Categorical? && k < |column.labels|
    ensures var r := MapCategories(column, palette, None);
      var d := Distinct(column.labels);
      && r.Success?
      && |r.value.table| == |d|
      && (forall i :: 0 <= i < |d| ==> r.value.table[i] == Entry(d[i], palette[i]))
      && r.value.rowColours[k] == Some(palette[FirstIndex(d, column.labels[k])])
  {
    var d := Distinct(column.labels);
    BuildPositional(d, palette);
    CategoryRowColour(column, palette, None, k);
    UniqueLastIsFirst(d, column.labels[k]);
  }

  /** With a list of distinct categories: list position i maps to palette[i]
      whatever the order of the rows, and a row gets that colour exactly when
      its category is listed. */
  lemma ListedColours(column: Column, palette: seq<Colour>, order: seq<Category>, k: nat)
    requires CategoriesFit(column, palette, Some(order))
    requires column.Categorical? && k < |column.labels|
    requires NoDups(order)
    ensures var r := MapCategories(column, palette, Some(order));
      var c := column.labels[k];
      && r.Success?
      && |r.value.table| == |order|
      && (forall i :: 0 <= i < |order| ==> r.value.table[i] == Entry(order[i], palette[i]))
      && r.value.rowColours[k] == if c in order then Some(palette[FirstIndex(order, c)]) else None
  {
    BuildPositional(order, palette);
    CategoryRowColour(column, palette, Some(order), k);
    if column.labels[k] in order {
      UniqueLastIsFirst(order, column.labels[k]);
    }
  }

  lemma UniqueLastIsFirst<T>(s: seq<T>, x: T)
    requires NoDups(s) && x in s
    ensures LastIndex(s, x) == FirstIndex(s, x)
  {
  }

  // ---------------------------------------------------------------------
  // Numeric columns cut into ranges

  /** A range boundary: a number, or an infinite end (`float('inf')`). */
  datatype Bound = NegInf | Fin(at: real) | PosInf

  /** b <= v */
  predicate AtOrBelow(b: Bound, v: real) {
    match b
    case NegInf => true
    case Fin(x) => x <= v
    case PosInf => false
  }

  /** v < b */
  predicate Exceeds(b: Bound, v: real) {
    match b
    case NegInf => false
    case Fin(x) => v < x
    case PosInf => true
  }

  /** a < b */
  predicate Less(a: Bound, b: Bound) {
    match (a, b)
    case (NegInf, NegInf) => false
    case (NegInf, _) => true
    case (Fin(x), Fin(y)) => x < y
    case (Fin(_), PosInf) => true
    case (_, _) => false
  }

  /** Boundaries as the range cut accepts them: strictly increasing. */
  predicate Increasing(bounds: seq<Bound>) {
    forall i, j :: 0 <= i < j < |bounds| ==> Less(bounds[i], bounds[j])
  }

  /** `v` lies in the left-closed, right-open range [bounds[i], bounds[i+1]). */
  predicate InBin(bounds: seq<Bound>, i: int, v: real) {
    0 <= i && i + 1 < |bounds| && AtOrBelow(bounds[i], v) && Exceeds(bounds[i + 1], v)
  }

  function BinFrom(bounds: seq<Bound>, v: real, k: nat): (r: Option<nat>)
    ensures r.Some? ==> k <= r.value && InBin(bounds, r.value, v)
    ensures r.None? ==> forall i :: k <= i ==> !InBin(bounds, i, v)
    decreases |bounds| - k
  {
    if k + 1 >= |bounds| then None
    else if InBin(bounds, k, v) then Some(k)
    else BinFrom(bounds, v, k + 1)
  }

  /** The range holding `v`, if any. */
  function BinOf(bounds: seq<Bound>, v: real): (r: Option<nat>)
    ensures r.Some? ==> InBin(bounds, r.value, v)
    ensures r.None? ==> forall i :: !InBin(bounds, i, v)
  {
    BinFrom(bounds, v, 0)
  }

  /** Over increasing boundaries the ranges are disjoint. */
  lemma BinsDisjoint(bounds: seq<Bound>, i: int, j: int, v: real)
    requires Increasing(bounds)
    requires InBin(bounds, i, v) && InBin(bounds, j, v)
    ensures i == j
  {
  }

  /** `v` is given label i exactly when it lies in range i. */
  lemma BinOfIff(bounds: seq<Bound>, v: real, i: nat)
    requires Increasing(bounds)
    ensures BinOf(bounds, v) == Some(i) <==> InBin(bounds, i, v)
  {
    if InBin(bounds, i, v) {
      BinsDisjoint(bounds, i, BinOf(bounds, v).value, v);
    }
  }

  /** Left-closed: a value equal to boundary i lands in range i, never i-1. */
  lemma BoundaryValueLeftClosed(bounds: seq<Bound>, i: nat, x: real)
    requires Increasing(bounds)
    requires i + 1 < |bounds| && bounds[i] == Fin(x)
    ensures BinOf(bounds, x) == Some(i)
  {
    assert Less(bounds[i], bounds[i + 1]);
    BinOfIff(bounds, x, i);
  }

  /** A value below the first boundary, or at or above a finite last one, is in no range. */
  lemma OutsideAllBins(bounds: seq<Bound>, v: real)
    requires Increasing(bounds) && |bounds| > 0
    requires Exceeds(bounds[0], v) || (bounds[|bounds| - 1].Fin? && bounds[|bounds| - 1].at <= v)
    ensures BinOf(bounds, v) == None
  {
  }

  /** Text of a missing category once cast to strings. */
  const Unbinned: Category := "nan"

  /** The label a value is cut to; a value in no range becomes a missing
      category, and casting the column to strings turns it into `Unbinned`. */
  function RangeLabel(bounds: seq<Bound>, labels: seq<Category>, v: real): (c: Category)
    requires |labels| == |bounds| - 1
  {
    match BinOf(bounds, v)
    case Some(i) => labels[i]
    case None => Unbinned
  }

  /** What the range cut needs once the count check has passed: increasing
      boundaries and distinct labels. */
  predicate CutAccepts(column: Column, labels: seq<Category>, bounds: seq<Bound>) {
    column.Numeric? && |labels| == |bounds| - 1 ==> Increasing(bounds) && NoDups(labels)
  }

  /** What the range cut and the colormap need on the path that reaches them:
      the cut's demands and a colour per label. */
  predicate RangesFit(column: Column, palette: seq<Colour>, labels: seq<Category>, bounds: seq<Bound>) {
    && CutAccepts(column, labels, bounds)
    && (column.Numeric? && |labels| == |bounds| - 1 ==> |labels| <= |palette|)
  }

  /** Colour ranges for a numeric column. The column kind is checked first,
      then the label count, before any row is cut. */
  function MapRanges(column: Column, palette: seq<Colour>, labels: seq<Category>, bounds: seq<Bound>): (r: Result<Mapping>)
    requires RangesFit(column, palette, labels, bounds)
    ensures column.Categorical? ==> r == Failure(NonNumericRangeColumn)
    ensures column.Numeric? && |labels| != |bounds| - 1 ==> r == Failure(RangeLabelCount(|labels|, |bounds|))
    ensures r.Success? <==> column.Numeric? && |labels| == |bounds| - 1
    ensures r.Success? ==>
      && |r.value.table| == |labels|
      && (forall i :: 0 <= i < |labels| ==> r.value.table[i] == Entry(labels[i], palette[i]))
      && |r.value.rowCategories| == |r.value.rowColours| == |column.numbers|
    ensures r.Success? ==> r.value.table == Build(labels, palette)
  {
    match column
    case Categorical(_) => Failure(NonNumericRangeColumn)
    case Numeric(numbers) =>
      if |labels| != |bounds| - 1 then Failure(RangeLabelCount(|labels|, |bounds|))
      else
        var cats := seq(|numbers|, k requires 0 <= k < |numbers| => RangeLabel(bounds, labels, numbers[k]));
        var t := Build(labels, palette);
        BuildPositional(labels, palette);
        Success(Mapping(t, cats, RowColours(t, cats)))
  }

  /** A value in range i is labelled labels[i] and coloured palette[i]; a
      value in no range gets no colour unless some label is literally the
      missing-value text. */
  lemma RangeRowColour(column: Column, palette: seq<Colour>, labels: seq<Category>, bounds: seq<Bound>, k: nat)
    requires RangesFit(column, palette, labels, bounds)
    requires column.Numeric? && |labels| == |bounds| - 1 && k < |column.numbers|
    ensures var r := MapRanges(column, palette, labels, bounds);
      var v := column.numbers[k];
      && r.Success?
      && (forall i :: InBin(bounds, i, v) ==>
            r.value.rowCategories[k] == labels[i] && r.value.rowColours[k] == Some(palette[i]))
      && ((forall i :: !InBin(bounds, i, v)) && Unbinned !in labels ==> r.value.rowColours[k] == None)
  {
    var r := MapRanges(column, palette, labels, bounds);
    var v := column.numbers[k];
    var c := RangeLabel(bounds, labels, v);
    assert r.value.rowCategories[k] == c;
    assert r.value.rowColours[k] == Lookup(Build(labels, palette), c);
    BuildLookup(labels, palette, c);
    forall i | InBin(bounds, i, v)
      ensures r.value.rowCategories[k] == labels[i] && r.value.rowColours[k] == Some(palette[i])
    {
      BinOfIff(bounds, v, i);
      UniqueLastIsFirst(labels, labels[i]);
    }
  }

  /** The worked example: ranges [0, 50), [50, 75), [75, inf) labelled low,
      medium, high. */
  lemma RangeLabelExample()
    ensures var b := [Fin(0.0), Fin(50.0), Fin(75.0), PosInf];
      var l := ["low", "medium", "high"];
      && RangeLabel(b, l, 50.0) == "medium"
      && RangeLabel(b, l, 49.9) == "low"
      && RangeLabel(b, l, 1000.0) == "high"
      && RangeLabel(b, l, -1.0) == Unbinned
  {
    var b := [Fin(0.0), Fin(50.0), Fin(75.0), PosInf];
    assert InBin(b, 1, 50.0) && InBin(b, 0, 49.9) && InBin(b, 2, 1000.0);
    BinOfIff(b, 50.0, 1);
    BinOfIff(b, 49.9, 0);
    BinOfIff(b, 1000.0, 2);
    OutsideAllBins(b, -1.0);
  }
}

=== FILE: colour_tables.dfy ===
/** The category-to-colour table: an insertion-ordered dictionary from
    category to colour, built by pairing an ordered category list with the
    palette position by position (`{c: cmap(i) for i, c in enumerate(order)}`). */
module ColourTables {
  import opened ChartBase
  import opened Seqs

  datatype Entry = Entry(category: Category, colour: Colour)

  /** Entries in dictionary insertion order. */
  type Table = seq<Entry>

  function Keys(t: Table): (ks: seq<Category>)
    ensures |ks| == |t|
    ensures forall i :: 0 <= i < |t| ==> ks[i] == t[i].category
  {
    if |t| == 0 then [] else [t[0].category] + Keys(t[1..])
  }

  /** Dictionary lookup: the colour stored for `c`, if `c` is a key. */
  function Lookup(t: Table, c: Category): (r: Option<Colour>)
    ensures r.Some? <==> c in Keys(t)
    ensures r.Some? ==> r.value == t[FirstIndex(Keys(t), c)].colour
  {
    if |t| == 0 then None
    else if t[0].category == c then Some(t[0].colour)
    else
      assert Keys(t)[1..] == Keys(t[1..]);
      Lookup(t[1..], c)
  }

  /** Dictionary assignment `t[c] = v`: an existing key keeps its position
      and takes the new colour; a new key goes to the end. */
  function Put(t: Table, c: Category, v: Colour): (r: Table)
    ensures Lookup(r, c) == Some(v)
    ensures forall c' :: c' != c ==> Lookup(r, c') == Lookup(t, c')
    ensures Keys(r) == if c in Keys(t) then Keys(t) else Keys(t) + [c]
  {
    if c in Keys(t) then
      var r := t[FirstIndex(Keys(t), c) := Entry(c, v)];
      assert Keys(r) == Keys(t);
      r
    else
      var r := t + [Entry(c, v)];
      assert Keys(r) == Keys(t) + [c];
      FirstIndexOfPrefix(Keys(t) + [c], [], c);
      assert forall c' :: c' != c && c' in Keys(t) ==> FirstIndex(Keys(r), c') == FirstIndex(Keys(t), c') by {
        forall c' | c' != c && c' in Keys(t) {
          FirstIndexOfPrefix(Keys(t), [c], c');
        }
      }
      r
  }

  /** The table `{order[i]: palette[i] for i in range(len(order))}`. */
  function Build(order: seq<Category>, palette: seq<Colour>): Table
    requires |order| <= |palette|
    decreases |order|
  {
    if |order| == 0 then []
    else Put(Build(order[..|order| - 1], palette), order[|order| - 1], palette[|order| - 1])
  }

  /** The table's keys are the categories of `order`, in first-seen order. */
  lemma {:induction false} BuildKeys(order: seq<Category>, palette: seq<Colour>)
    requires |order| <= |palette|
    ensures Keys(Build(order, palette)) == Distinct(order)
    decreases |order|
  {
    if |order| > 0 {
      BuildKeys(order[..|order| - 1], palette);
    }
  }

  /** A category of `order` is looked up to the palette entry at its LAST
      position in `order` (a repeated key is overwritten); any other
      category has no colour. */
  lemma {:induction false} BuildLookup(order: seq<Category>, palette: seq<Colour>, c: Category)
    requires |order| <= |palette|
    ensures c in order ==> Lookup(Build(order, palette), c) == Some(palette[LastIndex(order, c)])
    ensures c !in order ==> Lookup(Build(order, palette), c) == None
    decreases |order|
  {
    if |order| > 0 {
      var n := |order|;
      var p := order[..n - 1];
      assert order == p + [order[n - 1]];
      BuildLookup(p, palette, c);
      if c != order[n - 1] && c in order {
        var k :| 0 <= k < n && order[k] == c;
        assert p[k] == c;
      }
    }
  }

  /** Without repeated categories, entry i of the table pairs `order[i]`
      with `palette[i]`. */
  lemma {:induction false} BuildPositional(order: seq<Category>, palette: seq<Colour>)
    requires |order| <= |palette|
    requires NoDups(order)
    ensures |Build(order, palette)| == |order|
    ensures forall i :: 0 <= i < |order| ==> Build(order, palette)[i] == Entry(order[i], palette[i])
    decreases |order|
  {
    if |order| > 0 {
      var n := |order|;
      var p := order[..n - 1];
      assert NoDups(p) by {
        forall i, j | 0 <= i < j < |p| ensures p[i] != p[j] {
          assert p[i] == order[i] && p[j] == order[j];
        }
      }
      BuildPositional(p, palette);
      BuildKeys(p, palette);
      var t := Build(p, palette);
      assert order[n - 1] !in p by {
        forall k | 0 <= k < |p| ensures p[k] != order[n - 1] {
          assert p[k] == order[k];
        }
      }
      assert order[n - 1] !in Keys(t);
      var r := t + [Entry(order[n - 1], palette[n - 1])];
      assert Build(order, palette) == r;
      forall i | 0 <= i < n ensures r[i] == Entry(order[i], palette[i]) {
        if i < n - 1 {
          assert r[i] == t[i] && p[i] == order[i];
        }
      }
    }
  }

  /** Without repeated categories, category i is looked up to palette[i]. */
  lemma BuildLookupAt(order: seq<Category>, palette: seq<Colour>, i: nat)
    requires |order| <= |palette|
    requires NoDups(order) && i < |order|
    ensures Lookup(Build(order, palette), order[i]) == Some(palette[i])
  {
    BuildLookup(order, palette, order[i]);
    assert LastIndex(order, order[i]) == i;
  }
}

=== FILE: legend_handles.dfy ===
/** Legend handles of the categorised charts: one coloured patch per listed
    category, ordered by the category's position in the list (a stable sort
    keyed on the list index). */
module LegendHandles {
  import opened ChartBase
  import opened Seqs
  import opened ColourTables

  predicate SortedBy<T>(s: seq<T>, key: T -> int) {
    forall i, j :: 0 <= i < j < |s| ==> key(s[i]) <= key(s[j])
  }

  /** Insert `x` before the first element whose key is not smaller. */
  function InsertBy<T>(x: T, s: seq<T>, key: T -> int): (r: seq<T>)
    requires SortedBy(s, key)
    ensures SortedBy(r, key)
    ensures multiset(r) == multiset(s) + multiset{x}
    ensures |r| == |s| + 1
    ensures r[0] == x || (|s| > 0 && r[0] == s[0])
  {
    if |s| == 0 || key(x) <= key(s[0]) then [x] + s
    else
      var rest := InsertBy(x, s[1..], key);
      assert s == [s[0]] + s[1..];
      assert key(s[0]) <= key(rest[0]);
      [s[0]] + rest
  }

  /** Insertion sort by key; equal keys keep their original order. */
  function SortBy<T>(s: seq<T>, key: T -> int): (r: seq<T>)
    ensures SortedBy(r, key)
    ensures multiset(r) == multiset(s)
    ensures |r| == |s|
  {
    if |s| == 0 then []
    else
      assert s == [s[0]] + s[1..];
      var r := InsertBy(s[0], SortBy(s[1..], key), key);
      assert |r| == |multiset(r)|;
      r
  }

  /** Sorting an already sorted sequence leaves it unchanged. */
  lemma {:induction false} SortBySorted<T>(s: seq<T>, key: T -> int)
    requires SortedBy(s, key)
    ensures SortBy(s, key) == s
  {
    if |s| > 0 {
      assert SortedBy(s[1..], key);
      SortBySorted(s[1..], key);
    }
  }

  /** `[Patch(color=table[c], label=c) for c in cats]`. */
  function Patches(cats: seq<Category>, t: Table): (hs: seq<Entry>)
    requires forall i :: 0 <= i < |cats| ==> cats[i] in Keys(t)
    ensures |hs| == |cats|
    ensures forall i :: 0 <= i < |cats| ==> hs[i].category == cats[i] && Lookup(t, cats[i]) == Some(hs[i].colour)
  {
    seq(|cats|, i requires 0 <= i < |cats| => Entry(cats[i], Lookup(t, cats[i]).value))
  }

  /** The patches sorted by each label's first position in `order`. */
  function SortedPatches(order: seq<Category>, t: Table): (hs: seq<Entry>)
    requires forall i :: 0 <= i < |order| ==> order[i] in Keys(t)
    ensures |hs| == |order|
    ensures multiset(hs) == multiset(Patches(order, t))
    ensures forall i, j :: 0 <= i < j < |hs| ==> FirstIndex(order, hs[i].category) <= FirstIndex(order, hs[j].category)
  {
    SortBy(Patches(order, t), (e: Entry) => FirstIndex(order, e.category))
  }

  /** When the order lists each category once, the sort keeps the patches in list order. */
  lemma DistinctOrderKeepsPatches(order: seq<Category>, t: Table)
    requires forall i :: 0 <= i < |order| ==> order[i] in Keys(t)
    requires NoDups(order)
    ensures SortedPatches(order, t) == Patches(order, t)
  {
    var key := (e: Entry) => FirstIndex(order, e.category);
    var ps := Patches(order, t);
    forall i | 0 <= i < |order| ensures key(ps[i]) == i {
      assert ps[i].category == order[i];
    }
    SortBySorted(ps, key);
  }

  /** Over a table built from a list of distinct categories, the sorted
      patches pair category i with palette entry i. */
  lemma BuiltPatches(order: seq<Category>, palette: seq<Colour>)
    requires |order| <= |palette| && NoDups(order)
    ensures forall i :: 0 <= i < |order| ==> order[i] in Keys(Build(order, palette))
    ensures |SortedPatches(order, Build(order, palette))| == |order|
    ensures forall i :: 0 <= i < |order| ==> SortedPatches(order, Build(order, palette))[i] == Entry(order[i], palette[i])
  {
    var t := Build(order, palette);
    BuildKeys(order, palette);
    DistinctOrderKeepsPatches(order, t);
    forall i | 0 <= i < |order| ensures Patches(order, t)[i] == Entry(order[i], palette[i]) {
      BuildLookupAt(order, palette, i);
    }
  }
}

=== FILE: legend_placement.dfy ===
/** Legend placement shared by every wrapper: hidden, inside at the location
    keyword, or outside — to the right of the plot for a side keyword, below
    it for an "upper"/"lower" keyword. */
module LegendPlacement {
  import opened Seqs

  datatype Legend =
    | Hidden
    | Inside(loc: string)
    | RightOf(loc: string, anchorX: real, anchorY: real, pad: real)
    | Below(loc: string, anchorX: real, anchorY: real, columns: nat)

  /** `word` occurs somewhere in the location keyword. */
  ghost predicate Mentions(loc: string, word: string) {
    exists i :: OccursAt(loc, word, i)
  }

  lemma OccursAtStartsWith(s: string, sub: string, i: int)
    requires OccursAt(s, sub, i) && |sub| > 0
    ensures 0 <= i < |s| && s[i] == sub[0]
  {
    assert s[i..i + |sub|][0] == sub[0];
  }

  /** Where a legend of `entries` handles goes once it is drawn. */
  function Place(area: string, loc: string, entries: nat): (l: Legend)
    ensures l == Inside(loc) <==> area == "inside"
    ensures l == RightOf(loc, 1.05, 1.0, 0.0) <==>
      area != "inside" && !Mentions(loc, "upper") && !Mentions(loc, "lower")
    ensures l == Below(loc, 0.5, -0.2, entries) <==>
      area != "inside" && (Mentions(loc, "upper") || Mentions(loc, "lower"))
  {
    ContainsIffOccurs(loc, "upper");
    ContainsIffOccurs(loc, "lower");
    if area == "inside" then Inside(loc)
    else if !Contains(loc, "upper") && !Contains(loc, "lower") then RightOf(loc, 1.05, 1.0, 0.0)
    else Below(loc, 0.5, -0.2, entries)
  }

  /** The series legend: nothing unless the legend is enabled and `y` is a
      list of series; then the shared placement. */
  function SeriesLegend(enabled: bool, yIsList: bool, area: string, loc: string, entries: nat): (l: Legend)
    ensures l == Hidden <==> !enabled || !yIsList
    ensures l == Inside(loc) <==> enabled && yIsList && area == "inside"
    ensures l == RightOf(loc, 1.05, 1.0, 0.0) <==>
      enabled && yIsList && area != "inside" && !Mentions(loc, "upper") && !Mentions(loc, "lower")
    ensures l == Below(loc, 0.5, -0.2, entries) <==>
      enabled && yIsList && area != "inside" && (Mentions(loc, "upper") || Mentions(loc, "lower"))
  {
    if enabled && yIsList then Place(area, loc, entries) else Hidden
  }

  /** The default keywords "upper center" and "lower center" put the legend
      below the plot; a side keyword such as "center right" puts it to the
      right. */
  lemma DefaultKeywords(n: nat)
    ensures Place("outside", "upper center", n) == Below("upper center", 0.5, -0.2, n)
    ensures Place("outside", "lower center", n) == Below("lower center", 0.5, -0.2, n)
    ensures Place("outside", "center right", n) == RightOf("center right", 1.05, 1.0, 0.0)
  {
    assert OccursAt("upper center", "upper", 0);
    assert OccursAt("lower center", "lower", 0);
    var side := "center right";
    forall i | OccursAt(side, "upper", i) ensures false {
      OccursAtStartsWith(side, "upper", i);
    }
    forall i | OccursAt(side, "lower", i) ensures false {
      OccursAtStartsWith(side, "lower", i);
    }
  }
}

=== FILE: scatter_chart.dfy ===
/** The scatter wrapper: the same categorical and range colouring as the bar
    wrapper, each branch guarded by a palette-size check. */
module ScatterChart {
  import opened ChartBase
  import opened Seqs
  import opened ColourTables
  import opened ColourMapper
  import opened LegendHandles
  import opened LegendPlacement
  import opened Categorised

  datatype Scatter = Scatter(marks: Marks, legend: Legend)

  /** The named column exists, and custom ranges that pass the ranged
      branch's palette guard, and so reach the cut, are acceptable to it. */
  predicate ScatterFits(req: Request, palette: seq<Colour>) {
    && req.ColumnExists()
    && (&& req.table.Some? && req.column.Some? && req.order.Some? && req.ranges.Some?
        && |palette| >= |req.ranges.value| - 1 ==>
          CutAccepts(req.CategoryColumn(), req.order.value, req.ranges.value))
  }

  /** How many colours a categorised branch needs. */
  function Needed(req: Request, branch: Branch): int
    requires req.table.Some? && req.column.Some? && req.ColumnExists()
  {
    match branch
    case FirstSeen => DistinctCount(req.CategoryColumn())
    case Listed => if req.order.Some? then |req.order.value| else 0
    case Ranged => if req.ranges.Some? then |req.ranges.value| - 1 else 0
  }

  /** The marks, in the order the branches are tried. */
  function ScatterMarks(req: Request, palette: Palette): (r: Result<Marks>)
    requires ScatterFits(req, palette.colours)
    ensures r.Success? && r.value.ByCategory? ==>
      req.table.Some? && req.column.Some? && Needed(req, r.value.branch) <= |palette.colours|
    ensures
      (&& req.table.Some? && req.column.Some?
       && !(req.ranges.Some? && req.order.None?)
       && (req.y.Many? || req.order.Some? || |palette.colours| < Needed(req, FirstSeen))
       && (|| req.order.None?
           || (req.ranges.None? && |palette.colours| < Needed(req, Listed))
           || (req.ranges.Some? && |palette.colours| < Needed(req, Ranged))))
      ==> r == Failure(TooManyCategories(DistinctCount(req.CategoryColumn()), |palette.colours|))
    ensures req.table.Some? && req.column.None? ==>
      r == (if req.y.Single? then Success(LibraryDefault)
            else if req.ranges.Some? && req.order.None? then Failure(MissingCategoryList)
            else Failure(ColumnMissing))
    ensures
      (&& req.table.Some? && req.column.Some? && req.ranges.Some? && req.order.None?
       && (req.y.Many? || |palette.colours| < Needed(req, FirstSeen)))
      ==> r == Failure(MissingCategoryList)
    ensures req.table.None? ==>
      r == Success(if req.y.Many? && req.column.None? then DefaultPalette(|req.y.names|)
                   else if req.y.Single? then DefaultFirst
                   else NoMarks)
  {
    var n := |palette.colours|;
    if req.table.Some? then
      if req.y.Single? && req.column.None? then Success(LibraryDefault)
      else if req.y.Single? && req.column.Some? && req.order.None? && n >= DistinctCount(req.CategoryColumn()) then
        var column := req.CategoryColumn();
        var m :- MapCategories(column, palette.colours, None);
        Success(ByCategory(FirstSeen, m, Patches(UniqueLabels(column), m.table)))
      else if req.order.Some? && req.ranges.None? && n >= |req.order.value| then
        if req.column.None? then Failure(ColumnMissing)
        else
          var m :- MapCategories(req.CategoryColumn(), palette.colours, req.order);
          OrderInKeys(req.order.value, m.table);
          Success(ByCategory(Listed, m, SortedPatches(req.order.value, m.table)))
      else if req.order.Some? && req.ranges.Some? && n >= |req.ranges.value| - 1 then
        if req.column.None? then Failure(ColumnMissing)
        else
          var m :- MapRanges(req.CategoryColumn(), palette.colours, req.order.value, req.ranges.value);
          Success(ByCategory(Ranged, m, SortedPatches(req.order.value, m.table)))
      else if req.ranges.Some? && req.order.None? then Failure(MissingCategoryList)
      else if req.column.None? then Failure(ColumnMissing)
      else Failure(TooManyCategories(DistinctCount(req.CategoryColumn()), n))
    else if req.y.Many? && req.column.None? then Success(DefaultPalette(|req.y.names|))
    else if req.y.Single? then Success(DefaultFirst)
    else Success(NoMarks)
  }

  /** A scatter chart: the marks, then the legend. Without a category column
      it is the series legend (placed outside); with one it is the patch
      legend, drawn whatever the legend flag says. */
  function PlotScatter(req: Request, style: Style): (r: Result<Scatter>)
    requires ScatterFits(req, style.palette.colours)
    ensures r.Success? && req.column.Some? ==>
      req.table.Some? && r.value.marks.ByCategory? &&
      Needed(req, r.value.marks.branch) <= |style.palette.colours| &&
      r.value.legend == Place(style.plotArea, style.legendLoc, |r.value.marks.handles|)
    ensures r.Success? && req.column.None? ==>
      r.value.legend == SeriesLegend(style.legend, req.y.Many?, "outside", style.legendLoc, 0)
    ensures req.table.None? && req.column.Some? ==> r == Failure(HandlesUnbound)
    ensures ScatterMarks(req, style.palette).Failure? ==> r == Failure(ScatterMarks(req, style.palette).error)
    ensures ScatterMarks(req, style.palette).Success? && (req.column.None? || ScatterMarks(req, style.palette).value.ByCategory?)
      ==> r.Success? && r.value.marks == ScatterMarks(req, style.palette).value
    ensures req.column.None? ==>
      if req.table.Some? && req.y.Many? then
        r == Failure(if req.ranges.Some? && req.order.None? then MissingCategoryList else ColumnMissing)
      else r.Success?
    ensures
      (&& req.table.Some? && req.column.Some? && req.ranges.Some? && req.order.None?
       && (req.y.Many? || |style.palette.colours| < Needed(req, FirstSeen)))
      ==> r == Failure(MissingCategoryList)
  {
    var marks :- ScatterMarks(req, style.palette);
    if req.column.None? then
      Success(Scatter(marks, SeriesLegend(style.legend, req.y.Many?, "outside", style.legendLoc, 0)))
    else if !marks.ByCategory? then Failure(HandlesUnbound)
    else Success(Scatter(marks, Place(style.plotArea, style.legendLoc, |marks.handles|)))
  }

  /** A first-seen categorised scatter lists the column's distinct values in
      first-seen order as its legend, value i in palette entry i. */
  lemma FirstSeenScatterLegend(req: Request, style: Style)
    requires ScatterFits(req, style.palette.colours)
    requires req.table.Some? && req.column.Some? && req.order.None? && req.y.Single?
    requires req.CategoryColumn().Categorical?
    requires DistinctCount(req.CategoryColumn()) <= |style.palette.colours|
    ensures var r := PlotScatter(req, style);
      var d := Distinct(req.CategoryColumn().labels);
      && r.Success? && r.value.marks.branch == FirstSeen
      && |r.value.marks.handles| == |d|
      && (forall i :: 0 <= i < |d| ==> r.value.marks.handles[i] == Entry(d[i], style.palette.colours[i]))
  {
    var palette := style.palette.colours;
    var column := req.CategoryColumn();
    var d := Distinct(column.labels);
    var m := MapCategories(column, palette, None).value;
    var hs := Patches(d, m.table);
    assert m.table == Build(d, palette);
    assert ScatterMarks(req, style.palette) == Success(ByCategory(FirstSeen, m, hs));
    assert PlotScatter(req, style) == Success(Scatter(ByCategory(FirstSeen, m, hs), Place(style.plotArea, style.legendLoc, |hs|)));
    forall i | 0 <= i < |d| ensures hs[i] == Entry(d[i], palette[i]) {
      BuildLookupAt(d, palette, i);
    }
  }

  /** A scatter with a list of distinct categories and a colour for each:
      the legend lists them in list order, category i in palette entry i. */
  lemma ListedScatterLegend(req: Request, style: Style)
    requires ScatterFits(req, style.palette.colours)
    requires req.table.Some? && req.column.Some? && req.order.Some? && req.ranges.None?
    requires req.CategoryColumn().Categorical? && NoDups(req.order.value)
    requires |req.order.value| <= |style.palette.colours|
    ensures var r := PlotScatter(req, style);
      var o := req.order.value;
      && r.Success? && r.value.marks.ByCategory? && r.value.marks.branch == Listed
      && r.value.marks.mapping == MapCategories(req.CategoryColumn(), style.palette.colours, req.order).value
      && |r.value.marks.handles| == |o|
      && (forall i :: 0 <= i < |o| ==> r.value.marks.handles[i] == Entry(o[i], style.palette.colours[i]))
      && r.value.legend == Place(style.plotArea, style.legendLoc, |o|)
  {
    var palette := style.palette.colours;
    var o := req.order.value;
    var m := MapCategories(req.CategoryColumn(), palette, req.order).value;
    assert m.table == Build(o, palette);
    var hs := SortedPatches(o, m.table);
    assert ScatterMarks(req, style.palette) == Success(ByCategory(Listed, m, hs));
    assert PlotScatter(req, style) == Success(Scatter(ByCategory(Listed, m, hs), Place(style.plotArea, style.legendLoc, |hs|)));
    BuiltPatches(o, palette);
  }

  /** A ranged scatter with as many labels as ranges and a colour for each:
      the rows are cut into the ranges and the legend lists the labels in
      list order, label i in palette entry i. */
  lemma RangedScatterLegend(req: Request, style: Style)
    requires ScatterFits(req, style.palette.colours)
    requires req.table.Some? && req.column.Some? && req.order.Some? && req.ranges.Some?
    requires req.CategoryColumn().Numeric? && |req.order.value| == |req.ranges.value| - 1
    requires |req.order.value| <= |style.palette.colours|
    ensures var r := PlotScatter(req, style);
      var o := req.order.value;
      && r.Success? && r.value.marks.ByCategory? && r.value.marks.branch == Ranged
      && r.value.marks.mapping == MapRanges(req.CategoryColumn(), style.palette.colours, o, req.ranges.value).value
      && |r.value.marks.handles| == |o|
      && (forall i :: 0 <= i < |o| ==> r.value.marks.handles[i] == Entry(o[i], style.palette.colours[i]))
      && r.value.legend == Place(style.plotArea, style.legendLoc, |o|)
  {
    var m := RangedScatterPlot(req, style);
    BuiltPatches(req.order.value, style.palette.colours);
  }

  /** The ranged branch plots the range mapping, built from the labels, with
      the sorted patches as handles. */
  lemma RangedScatterPlot(req: Request, style: Style) returns (m: Mapping)
    requires ScatterFits(req, style.palette.colours)
    requires req.table.Some? && req.column.Some? && req.order.Some? && req.ranges.Some?
    requires req.CategoryColumn().Numeric? && |req.order.value| == |req.ranges.value| - 1
    requires |req.order.value| <= |style.palette.colours|
    ensures MapRanges(req.CategoryColumn(), style.palette.colours, req.order.value, req.ranges.value) == Success(m)
    ensures m.table == Build(req.order.value, style.palette.colours)
    ensures var hs := SortedPatches(req.order.value, m.table);
      PlotScatter(req, style) == Success(Scatter(ByCategory(Ranged, m, hs), Place(style.plotArea, style.legendLoc, |hs|)))
  {
    m := RangedScatterSuccess(req, style.palette);
    CategorisedScatter(req, style, ByCategory(Ranged, m, SortedPatches(req.order.value, m.table)));
  }

  /** The success case of the ranged branch, with the mapping named. */
  lemma RangedScatterSuccess(req: Request, palette: Palette) returns (m: Mapping)
    requires ScatterFits(req, palette.colours)
    requires req.table.Some? && req.column.Some? && req.order.Some? && req.ranges.Some?
    requires req.CategoryColumn().Numeric? && |req.order.value| == |req.ranges.value| - 1
    requires |req.order.value| <= |palette.colours|
    ensures MapRanges(req.CategoryColumn(), palette.colours, req.order.value, req.ranges.value) == Success(m)
    ensures ScatterMarks(req, palette) == Success(ByCategory(Ranged, m, SortedPatches(req.order.value, m.table)))
  {
    assert Needed(req, Ranged) <= |palette.colours|;
    RangedScatterMarks(req, palette);
    m := MapRanges(req.CategoryColumn(), palette.colours, req.order.value, req.ranges.value).value;
  }

  /** Categorised marks with a category column get the patch legend. */
  lemma CategorisedScatter(req: Request, style: Style, marks: Marks)
    requires ScatterFits(req, style.palette.colours) && req.column.Some? && marks.ByCategory?
    requires ScatterMarks(req, style.palette) == Success(marks)
    ensures PlotScatter(req, style) == Success(Scatter(marks, Place(style.plotArea, style.legendLoc, |marks.handles|)))
  {
  }

  /** Once the first-seen guard holds (one series, no list, a colour per
      distinct value), a numeric column is rejected; otherwise the marks
      carry the first-seen mapping and one unsorted patch per distinct value. */
  lemma FirstSeenScatterMarks(req: Request, palette: Palette)
    requires ScatterFits(req, palette.colours)
    requires req.table.Some? && req.column.Some? && req.y.Single? && req.order.None?
    requires Needed(req, FirstSeen) <= |palette.colours|
    ensures ScatterMarks(req, palette) ==
      if req.CategoryColumn().Numeric? then Failure(NumericCategoryColumn)
      else
        var m := MapCategories(req.CategoryColumn(), palette.colours, None).value;
        Success(ByCategory(FirstSeen, m, Patches(UniqueLabels(req.CategoryColumn()), m.table)))
  {
  }

  /** Once the listed guard holds (a list, no ranges, a colour per list
      entry), a numeric column is rejected; otherwise the marks carry the
      mapping for the list, repeats included, and the patches sorted by list
      position. */
  lemma ListedScatterMarks(req: Request, palette: Palette)
    requires ScatterFits(req, palette.colours)
    requires req.table.Some? && req.column.Some? && req.order.Some? && req.ranges.None?
    requires Needed(req, Listed) <= |palette.colours|
    ensures ScatterMarks(req, palette) ==
      if req.CategoryColumn().Numeric? then Failure(NumericCategoryColumn)
      else
        var m := MapCategories(req.CategoryColumn(), palette.colours, req.order).value;
        Success(ByCategory(Listed, m, SortedPatches(req.order.value, m.table)))
  {
    if req.CategoryColumn().Categorical? {
      var m := MapCategories(req.CategoryColumn(), palette.colours, req.order).value;
      OrderInKeys(req.order.value, m.table);
    }
  }

  /** Once the ranged guard holds (a list, ranges, a colour per range), a
      categorical column is rejected, then a label count other than the
      boundaries minus one; otherwise the marks carry the range mapping and
      the patches sorted by list position. */
  lemma RangedScatterMarks(req: Request, palette: Palette)
    requires ScatterFits(req, palette.colours)
    requires req.table.Some? && req.column.Some? && req.order.Some? && req.ranges.Some?
    requires Needed(req, Ranged) <= |palette.colours|
    ensures ScatterMarks(req, palette) ==
      if req.CategoryColumn().Categorical? then Failure(NonNumericRangeColumn)
      else if |req.order.value| != |req.ranges.value| - 1 then
        Failure(RangeLabelCount(|req.order.value|, |req.ranges.value|))
      else
        var m := MapRanges(req.CategoryColumn(), palette.colours, req.order.value, req.ranges.value).value;
        Success(ByCategory(Ranged, m, SortedPatches(req.order.value, m.table)))
  {
    if req.CategoryColumn().Numeric? && |req.order.value| == |req.ranges.value| - 1 {
      var m := MapRanges(req.CategoryColumn(), palette.colours, req.order.value, req.ranges.value).value;
      assert !(req.y.Single? && req.column.None?) && !(req.order.Some? && req.ranges.None?);
      assert ScatterMarks(req, palette) == Success(ByCategory(Ranged, m, SortedPatches(req.order.value, m.table)));
    }
  }

  // ---------------------------------------------------------------------
  // Custom ranges without a category list

  /** As written, ranges without a category list are rejected only when no
      earlier branch fires: a single-series scatter over a categorical column
      with enough colours takes the first-seen branch and silently ignores
      the ranges. */
  lemma RangesWithoutListAccepted()
    ensures var req := Request(
        Some(Frame(2, map["position" := Categorical(["GK", "DEF"])])),
        Single("influence"), Some("position"), None, Some([Fin(0.0), PosInf]));
      PlotScatter(req, Style(Palette(["#12436D", "#28A197"], true), true, "upper center", "outside")).Success?
  {
    var labels := ["GK", "DEF"];
    assert labels[..1] == ["GK"];
    assert Distinct(labels) == ["GK", "DEF"];
    var req := Request(
        Some(Frame(2, map["position" := Categorical(labels)])),
        Single("influence"), Some("position"), None, Some([Fin(0.0), PosInf]));
    assert req.CategoryColumn() == Categorical(labels);
    FirstSeenScatterLegend(req, Style(Palette(["#12436D", "#28A197"], true), true, "upper center", "outside"));
  }

  /** Ranges the cut would refuse (decreasing boundaries) never reach it when
      the palette is too short for them: the scatter raises the
      too-many-categories error with the column's distinct count. */
  lemma TooFewColoursBeforeCut()
    ensures var req := Request(
        Some(Frame(1, map["score" := Numeric([7.0])])),
        Single("influence"), Some("score"), Some(["a"]), Some([Fin(10.0), Fin(5.0)]));
      && !CutAccepts(req.CategoryColumn(), ["a"], [Fin(10.0), Fin(5.0)])
      && ScatterFits(req, [])
      && PlotScatter(req, Style(Palette([], true), true, "upper center", "outside"))
         == Failure(TooManyCategories(1, 0))
  {
    var req := Request(
        Some(Frame(1, map["score" := Numeric([7.0])])),
        Single("influence"), Some("score"), Some(["a"]), Some([Fin(10.0), Fin(5.0)]));
    var palette := Palette([], true);
    var b := [Fin(10.0), Fin(5.0)];
    assert !Increasing(b) by {
      assert !Less(b[0], b[1]);
    }
    assert req.CategoryColumn() == Numeric([7.0]);
    assert DistinctCount(req.CategoryColumn()) == 1 by {
      assert Distinct([7.0]) == [7.0];
    }
    assert |palette.colours| < Needed(req, Ranged);
    assert ScatterMarks(req, palette) == Failure(TooManyCategories(1, 0));
  }

  /** The general form: whenever the first-seen branch fires, a scatter
      with ranges but no list draws exactly the scatter without the ranges. */
  lemma RangesIgnoredByFirstSeen(req: Request, style: Style)
    requires ScatterFits(req, style.palette.colours)
    requires req.table.Some? && req.column.Some? && req.order.None? && req.ranges.Some? && req.y.Single?
    requires req.CategoryColumn().Categorical?
    requires DistinctCount(req.CategoryColumn()) <= |style.palette.colours|
    ensures ScatterFits(req.(ranges := None), style.palette.colours)
    ensures PlotScatter(req, style).Success?
    ensures PlotScatter(req, style) == PlotScatter(req.(ranges := None), style)
  {
  }

  /** The basic branch skips the rejection too: a single-series scatter from
      a table without a category column, given ranges but no list, draws
      exactly the scatter without the ranges. */
  lemma RangesIgnoredWithoutColumn(req: Request, style: Style)
    requires ScatterFits(req, style.palette.colours)
    requires req.table.Some? && req.column.None? && req.order.None? && req.ranges.Some? && req.y.Single?
    ensures ScatterFits(req.(ranges := None), style.palette.colours)
    ensures PlotScatter(req, style).Success?
    ensures PlotScatter(req, style) == PlotScatter(req.(ranges := None), style)
  {
  }

  /** The marks with the ranges-without-list rejection moved ahead of the
      branches, as the bar wrapper applies it. */
  function ScatterMarksChecked(req: Request, palette: Palette): (r: Result<Marks>)
    requires ScatterFits(req, palette.colours)
    ensures req.table.Some? && req.ranges.Some? && req.order.None? ==> r == Failure(MissingCategoryList)
    ensures r.Success? && r.value.ByCategory? && r.value.branch == FirstSeen ==> req.ranges.None?
  {
    if req.table.Some? && req.ranges.Some? && req.order.None? then Failure(MissingCategoryList)
    else ScatterMarks(req, palette)
  }

  /** The scatter chart built from the checked marks. */
  function PlotScatterChecked(req: Request, style: Style): (r: Result<Scatter>)
    requires ScatterFits(req, style.palette.colours)
    ensures req.table.Some? && req.ranges.Some? && req.order.None? ==> r == Failure(MissingCategoryList)
    ensures !(req.table.Some? && req.ranges.Some? && req.order.None?) ==> r == PlotScatter(req, style)
  {
    var marks :- ScatterMarksChecked(req, style.palette);
    if req.column.None? then
      Success(Scatter(marks, SeriesLegend(style.legend, req.y.Many?, "outside", style.legendLoc, 0)))
    else if !marks.ByCategory? then Failure(HandlesUnbound)
    else Success(Scatter(marks, Place(style.plotArea, style.legendLoc, |marks.handles|)))
  }
}

=== FILE: seqs.dfy ===
/** Sequence facts the colour mapping relies on: first-seen distinct values
    (the column `unique` operation), first and last positions, and substring
    search (the `in` test on location keywords). */
module Seqs {

  predicate NoDups<T(==)>(s: seq<T>) {
    forall i, j :: 0 <= i < j < |s| ==> s[i] != s[j]
  }

  /** Position of the first occurrence of `x` in `s`, or `|s|` when it does not occur. */
  function FirstIndex<T(==)>(s: seq<T>, x: T): (i: nat)
    ensures i <= |s|
    ensures i < |s| <==> x in s
    ensures i < |s| ==> s[i] == x
    ensures forall j :: 0 <= j < i ==> s[j] != x
  {
    if |s| == 0 then 0
    else if s[0] == x then 0
    else 1 + FirstIndex(s[1..], x)
  }

  /** Position of the last occurrence of `x` in `s`. */
  function LastIndex<T(==)>(s: seq<T>, x: T): (i: nat)
    requires x in s
    ensures i < |s| && s[i] == x
    ensures forall j :: i < j < |s| ==> s[j] != x
  {
    if s[|s| - 1] == x then |s| - 1
    else
      assert x in s[..|s| - 1] by {
        var k :| 0 <= k < |s| && s[k] == x;
        assert s[..|s| - 1][k] == x;
      }
      LastIndex(s[..|s| - 1], x)
  }

  /** The distinct values of `s`, each kept where it is first seen. */
  function Distinct<T(==)>(s: seq<T>): (d: seq<T>)
    ensures NoDups(d)
    ensures forall i :: 0 <= i < |d| ==> d[i] in s
    ensures forall i :: 0 <= i < |s| ==> s[i] in d
    ensures |d| <= |s|
  {
    if |s| == 0 then []
    else
      var d := Distinct(s[..|s| - 1]);
      assert s == s[..|s| - 1] + [s[|s| - 1]];
      if s[|s| - 1] in d then d else d + [s[|s| - 1]]
  }

  lemma {:induction false} FirstIndexOfPrefix<T>(p: seq<T>, q: seq<T>, x: T)
    requires x in p
    ensures FirstIndex(p + q, x) == FirstIndex(p, x)
  {
    if p[0] != x {
      assert (p + q)[1..] == p[1..] + q;
      FirstIndexOfPrefix(p[1..], q, x);
    }
  }

  /** `Distinct` lists values in the order of their first occurrence. */
  lemma {:induction false} DistinctFirstSeenOrder<T>(s: seq<T>, i: nat, j: nat)
    requires i < j < |Distinct(s)|
    ensures FirstIndex(s, Distinct(s)[i]) < FirstIndex(s, Distinct(s)[j])
  {
    var n := |s|;
    var p := s[..n - 1];
    var d := Distinct(p);
    assert s == p + [s[n - 1]];
    var x, y := Distinct(s)[i], Distinct(s)[j];
    if j < |d| {
      assert x == d[i] && y == d[j];
      DistinctFirstSeenOrder(p, i, j);
      FirstIndexOfPrefix(p, [s[n - 1]], x);
      FirstIndexOfPrefix(p, [s[n - 1]], y);
    } else {
      assert y == s[n - 1] && y !in p;
      assert x == d[i] && x in p;
      FirstIndexOfPrefix(p, [s[n - 1]], x);
      assert FirstIndex(s, y) == n - 1;
    }
  }

  /** `sub` sits in `s` starting at position `i`. */
  ghost predicate OccursAt(s: string, sub: string, i: int) {
    0 <= i && i + |sub| <= |s| && s[i..i + |sub|] == sub
  }

  /** Substring search, as in `sub in s`. */
  function Contains(s: string, sub: string): bool
    decreases |s|
  {
    (|sub| <= |s| && s[..|sub|] == sub) || (|s| > 0 && Contains(s[1..], sub))
  }

  lemma {:induction false} ContainsIffOccurs(s: string, sub: string)
    ensures Contains(s, sub) <==> exists i :: OccursAt(s, sub, i)
    decreases |s|
  {
    if |sub| <= |s| && s[..|sub|] == sub {
      assert OccursAt(s, sub, 0);
    } else if |s| > 0 {
      ContainsIffOccurs(s[1..], sub);
      if Contains(s[1..], sub) {
        var i :| OccursAt(s[1..], sub, i);
        assert s[1..][i..i + |sub|] == s[i + 1..i + 1 + |sub|];
        assert OccursAt(s, sub, i + 1);
      } else {
        forall i | OccursAt(s, sub, i) ensures false {
          assert i != 0;
          assert s[1..][i - 1..i - 1 + |sub|] == s[i..i + |sub|];
          assert OccursAt(s[1..], sub, i - 1);
        }
      }
    }
  }
}

=== FILE: series_charts.dfy ===
/** The multi-series wrappers: stacked, horizontal stacked and grouped bars.
    Each needs a table, a list of y columns and a list palette with a colour
    per series, checked in that order. */
module SeriesCharts {
  import opened ChartBase
  import opened LegendPlacement

  /** Every named series is a numeric column with one value per row. */
  predicate SeriesPresent(frame: Frame, names: seq<Name>) {
    forall i :: 0 <= i < |names| ==>
      names[i] in frame.columns && frame.columns[names[i]].Numeric? &&
      |frame.columns[names[i]].numbers| == frame.rows
  }

  /** What a multi-series request must supply to reach drawing. */
  predicate Accepted(table: Option<Frame>, y: SeriesSpec, palette: Palette) {
    table.Some? && y.Many? && |y.names| <= |palette.colours| && palette.isList
  }

  /** The checks shared by the multi-series wrappers, in source order: a
      table, then a list of series, then enough colours, then a list palette. */
  function CheckSeries(table: Option<Frame>, y: SeriesSpec, palette: Palette): (r: Option<ChartError>)
    ensures r.None? <==> Accepted(table, y, palette)
    ensures table.None? ==> r == Some(MissingTable)
    ensures table.Some? && y.Single? ==> r == Some(SeriesNotList)
    ensures table.Some? && y.Many? && |y.names| > |palette.colours| ==>
      r == Some(TooManySeries(|y.names|, |palette.colours|))
    ensures table.Some? && y.Many? && |y.names| <= |palette.colours| && !palette.isList ==>
      r == Some(PaletteNotList)
  {
    if table.None? then Some(MissingTable)
    else if y.Single? then Some(SeriesNotList)
    else if |y.names| > |palette.colours| then Some(TooManySeries(|y.names|, |palette.colours|))
    else if !palette.isList then Some(PaletteNotList)
    else None
  }

  function SeriesValues(frame: Frame, names: seq<Name>): (vs: seq<seq<real>>)
    requires SeriesPresent(frame, names)
    ensures |vs| == |names|
    ensures forall i :: 0 <= i < |names| ==> |vs[i]| == frame.rows
    ensures forall i :: 0 <= i < |names| ==> vs[i] == frame.columns[names[i]].numbers
  {
    seq(|names|, i requires 0 <= i < |names| => frame.columns[names[i]].numbers)
  }

  // ---------------------------------------------------------------------
  // Stacked bars

  datatype Orientation = Vertical | Horizontal

  /** One drawn series: its name, its values, the baseline it starts from
      (`bottom` for vertical bars, `left` for horizontal ones) and its colour. */
  datatype Segment = Segment(series: Name, values: seq<real>, baseline: seq<real>, colour: Colour)

  datatype Stacked = Stacked(orientation: Orientation, segments: seq<Segment>, legend: Legend)

  /** The sum of series 0..i-1 at row r: the stack height under series i. */
  function SumBelow(values: seq<seq<real>>, i: nat, r: nat): real
    requires i <= |values|
    requires forall j :: 0 <= j < i ==> r < |values[j]|
  {
    if i == 0 then 0.0 else SumBelow(values, i - 1, r) + values[i - 1][r]
  }

  /** The total of row r over all series, summed from the first series on. */
  function RowTotal(values: seq<seq<real>>, r: nat): real
    requires forall j :: 0 <= j < |values| ==> r < |values[j]|
  {
    if |values| == 0 then 0.0 else values[0][r] + RowTotal(values[1..], r)
  }

  /** Adding a series at the end adds its value to the row total. */
  lemma {:induction false} RowTotalAppend(values: seq<seq<real>>, v: seq<real>, r: nat)
    requires forall j :: 0 <= j < |values| ==> r < |values[j]|
    requires r < |v|
    ensures RowTotal(values + [v], r) == RowTotal(values, r) + v[r]
  {
    if |values| > 0 {
      assert (values + [v])[1..] == values[1..] + [v];
      RowTotalAppend(values[1..], v, r);
    }
  }

  /** The stack height under series i is the row total of the series below it. */
  lemma {:induction false} SumBelowIsTotal(values: seq<seq<real>>, i: nat, r: nat)
    requires i <= |values|
    requires forall j :: 0 <= j < |values| ==> r < |values[j]|
    ensures SumBelow(values, i, r) == RowTotal(values[..i], r)
  {
    if i > 0 {
      SumBelowIsTotal(values, i - 1, r);
      assert values[..i] == values[..i - 1] + [values[i - 1]];
      RowTotalAppend(values[..i - 1], values[i - 1], r);
    }
  }

  /** The running baseline: start at zero, draw each series on the current
      baseline, then add the series to it. */
  method Baselines(values: seq<seq<real>>, rows: nat) returns (bases: seq<seq<real>>)
    requires forall i :: 0 <= i < |values| ==> |values[i]| == rows
    ensures |bases| == |values|
    ensures forall i :: 0 <= i < |values| ==> |bases[i]| == rows
    ensures forall i, r :: 0 <= i < |values| && 0 <= r < rows ==> bases[i][r] == SumBelow(values, i, r)
  {
    var bottom := seq(rows, r => 0.0);
    bases := [];
    for i := 0 to |values|
      invariant |bases| == i && |bottom| == rows
      invariant forall r :: 0 <= r < rows ==> bottom[r] == SumBelow(values, i, r)
      invariant forall j :: 0 <= j < i ==> |bases[j]| == rows
      invariant forall j, r :: 0 <= j < i && 0 <= r < rows ==> bases[j][r] == SumBelow(values, j, r)
    {
      bases := bases + [bottom];
      bottom := seq(rows, r requires 0 <= r < rows => bottom[r] + values[i][r]);
    }
  }

  /** A stacked (or horizontal stacked) bar chart: series i is drawn in
      palette colour i on the per-row sum of series 0..i-1, with the series
      legend over all series. */
  method PlotStacked(o: Orientation, table: Option<Frame>, y: SeriesSpec, style: Style) returns (r: Result<Stacked>)
    requires CheckSeries(table, y, style.palette).None? ==> SeriesPresent(table.value, y.names)
    ensures r.Failure? <==> CheckSeries(table, y, style.palette).Some?
    ensures r.Failure? ==> r.error == CheckSeries(table, y, style.palette).value
    ensures r.Success? ==>
      var vs := SeriesValues(table.value, y.names);
      && r.value.orientation == o
      && |r.value.segments| == |y.names|
      && (forall i :: 0 <= i < |vs| ==>
            && r.value.segments[i].series == y.names[i]
            && r.value.segments[i].values == vs[i]
            && r.value.segments[i].colour == style.palette.colours[i]
            && |r.value.segments[i].baseline| == table.value.rows
            && forall k :: 0 <= k < table.value.rows ==> r.value.segments[i].baseline[k] == SumBelow(vs, i, k))
      && r.value.legend == SeriesLegend(style.legend, true, style.plotArea, style.legendLoc, |y.names|)
    ensures r.Success? && |y.names| > 0 ==>
      var vs := SeriesValues(table.value, y.names);
      var top := r.value.segments[|vs| - 1];
      forall k :: 0 <= k < table.value.rows ==> top.baseline[k] + top.values[k] == RowTotal(vs, k)
  {
    var rejected := CheckSeries(table, y, style.palette);
    if rejected.Some? {
      return Failure(rejected.value);
    }
    var vs := SeriesValues(table.value, y.names);
    var bases := Baselines(vs, table.value.rows);
    var segments := seq(|vs|, i requires 0 <= i < |vs| => Segment(y.names[i], vs[i], bases[i], style.palette.colours[i]));
    forall k | 0 <= k < table.value.rows && |vs| > 0
      ensures SumBelow(vs, |vs| - 1, k) + vs[|vs| - 1][k] == RowTotal(vs, k)
    {
      StackTop(vs, k);
    }
    r := Success(Stacked(o, segments, SeriesLegend(style.legend, true, style.plotArea, style.legendLoc, |y.names|)));
  }

  /** The top of the last series in a row, its baseline plus its value, is
      the row's total over all series. */
  lemma StackTop(values: seq<seq<real>>, r: nat)
    requires |values| > 0
    requires forall j :: 0 <= j < |values| ==> r < |values[j]|
    ensures SumBelow(values, |values| - 1, r) + values[|values| - 1][r] == RowTotal(values, r)
  {
    SumBelowIsTotal(values, |values|, r);
    assert values[..|values|] == values;
  }

  /** Two numeric series, goals and assists, over two rows. */
  method ExampleFrame() returns (frame: Frame, names: seq<Name>)
    ensures frame.rows == 2 && names == ["goals", "assists"]
    ensures SeriesPresent(frame, names)
    ensures frame.columns[names[0]] == Numeric([3.0, 1.0]) && frame.columns[names[1]] == Numeric([2.0, 4.0])
  {
    frame := Frame(2, map["goals" := Numeric([3.0, 1.0]), "assists" := Numeric([2.0, 4.0])]);
    names := ["goals", "assists"];
    assert frame.columns[names[0]] == Numeric([3.0, 1.0]);
    assert frame.columns[names[1]] == Numeric([2.0, 4.0]);
  }

  /** The worked example: two series over two rows; the second series sits on
      the first, and its top is the row total. */
  method StackedExample() returns (r: Result<Stacked>)
    ensures r.Success? && |r.value.segments| == 2
    ensures r.value.segments[1].baseline == [3.0, 1.0]
    ensures |r.value.segments[1].values| == 2
    ensures r.value.segments[1].baseline[0] + r.value.segments[1].values[0] == 5.0
  {
    var frame, names := ExampleFrame();
    var style := Style(Palette(["#12436D", "#28A197"], true), true, "upper center", "outside");
    var vs := SeriesValues(frame, names);
    assert vs[0] == [3.0, 1.0] && vs[1] == [2.0, 4.0];
    assert SumBelow(vs, 1, 0) == 3.0 && SumBelow(vs, 1, 1) == 1.0;
    r := PlotStacked(Vertical, Some(frame), Many(names), style);
    var s := r.value.segments[1];
    assert s.baseline[0] == SumBelow(vs, 1, 0) && s.baseline[1] == SumBelow(vs, 1, 1);
  }

  // ---------------------------------------------------------------------
  // Grouped bars

  /** One series of a grouped chart: name, values, offset from each slot's
      left position, colour. */
  datatype Group = Group(series: Name, values: seq<real>, offset: real, colour: Colour)

  /** Bar width, the series, and a tick position per row. */
  datatype Grouped = Grouped(width: real, groups: seq<Group>, ticks: seq<real>, legend: Legend)

  /** Bar width for n series: n+1 widths fill a slot. */
  function BarWidth(n: nat): real {
    1.0 / (n as real + 1.0)
  }

  /** The shift of series i from each slot's position. */
  function Offset(n: nat, i: nat): real {
    BarWidth(n) * i as real
  }

  /** The source's tick for row k: k - width/2 + width*n/2. */
  function Tick(n: nat, k: nat): real {
    (k as real - 0.5 * BarWidth(n)) + (BarWidth(n) * n as real) / 2.0
  }

  /** A grouped bar chart: series i is drawn at its offset in palette colour
      i, with a tick per row and the series legend. */
  function PlotGrouped(table: Option<Frame>, y: SeriesSpec, style: Style): (r: Result<Grouped>)
    requires CheckSeries(table, y, style.palette).None? ==> SeriesPresent(table.value, y.names)
    ensures r.Failure? <==> CheckSeries(table, y, style.palette).Some?
    ensures r.Failure? ==> r.error == CheckSeries(table, y, style.palette).value
    ensures r.Success? ==>
      && r.value.width == BarWidth(|y.names|)
      && |r.value.groups| == |y.names|
      && |r.value.ticks| == table.value.rows
      && (forall i :: 0 <= i < |y.names| ==>
            && r.value.groups[i].series == y.names[i]
            && r.value.groups[i].values == table.value.columns[y.names[i]].numbers
            && r.value.groups[i].colour == style.palette.colours[i]
            && r.value.groups[i].offset == Offset(|y.names|, i))
      && (forall k :: 0 <= k < table.value.rows ==> r.value.ticks[k] == Tick(|y.names|, k))
      && r.value.legend == SeriesLegend(style.legend, true, style.plotArea, style.legendLoc, |y.names|)
  {
    match CheckSeries(table, y, style.palette)
    case Some(e) => Failure(e)
    case None =>
      var n := |y.names|;
      var vs := SeriesValues(table.value, y.names);
      var groups := seq(n, i requires 0 <= i < n => Group(y.names[i], vs[i], Offset(n, i), style.palette.colours[i]));
      var ticks := seq(table.value.rows, k requires 0 <= k => Tick(n, k));
      Success(Grouped(BarWidth(n), groups, ticks, SeriesLegend(style.legend, true, style.plotArea, style.legendLoc, n)))
  }

  /** Consecutive series sit one width apart; every offset lies in [0, 1)
      and leaves a width of gap before the next slot. */
  lemma OffsetsFitSlot(n: nat, i: nat)
    requires i < n
    ensures BarWidth(n) * (n as real + 1.0) == 1.0
    ensures Offset(n, i + 1) == Offset(n, i) + BarWidth(n)
    ensures 0.0 <= Offset(n, i) < 1.0
    ensures Offset(n, i) + BarWidth(n) <= 1.0 - BarWidth(n)
  {
    var w := BarWidth(n);
    var ni, ii := n as real, i as real;
    assert w * (ni + 1.0) == 1.0;
    assert (i + 1) as real == ii + 1.0;
    assert w * (ii + 1.0) == w * ii + w;
    assert Offset(n, i) + w <= 1.0 - w by {
      assert w * ni == 1.0 - w by {
        assert w * (ni + 1.0) == w * ni + w;
      }
      Scaled(w, ii + 1.0, ni);
    }
    Scaled(w, ii, ni + 1.0);
  }

  /** Each tick is the midpoint of the first and last offsets of its row:
      k + width*(n-1)/2. */
  lemma TickIsMidpoint(n: nat, k: nat)
    requires n > 0
    ensures Tick(n, k) == k as real + (Offset(n, 0) + Offset(n, n - 1)) / 2.0
  {
    var w := BarWidth(n);
    assert w * (n - 1) as real == w * n as real - w;
  }

  /** Scaling by a positive factor keeps order. */
  lemma Scaled(w: real, a: real, b: real)
    requires w > 0.0 && 0.0 <= a <= b
    ensures 0.0 <= w * a <= w * b
  {
  }
}
